=== FILE: README.md ===
# sort-lib in Dafny

A model of the Go generic sorting library `sort/sort.go`. The library has
five in-place comparison sorts and one sortedness check:

- QuickSort uses a Lomuto partition with the last element as pivot.
- MergeSort copies both halves into fresh buffers, sorts them recursively and merges them back.
- InsertionSort shifts and drops each key into place.
- BubbleSort makes adjacent-swap passes and stops after a pass with no swap.
- HeapSort builds a max-heap bottom-up, then extracts its root repeatedly.
- IsSorted checks adjacent pairs.

Every sort takes a slice and a caller-supplied predicate `less(a, b)` ("a must come before b").

The model has three modules:

- `sort_spec.dfy` (module `SortSpec`) is the vocabulary:
  - orderings: strict weak order, strict total order, and the equivalent asymmetric plus "not after is transitive" form;
  - sortedness, both adjacent (`Sorted`, what `IsSorted` checks) and pairwise;
  - uniqueness of a sorted permutation under a total order;
  - `PermutedWithin`, a permutation confined to an index range;
  - stability: `Ties(s, x, less)` lists the elements of `s` tied with `x` (neither must precede the other) in their order in `s`, and `Stable(s, t, less)` says every `x` has the same tie list in `t` as in `s`.
- `sort.dfy` (module `Sort`) holds the algorithms.
  - Each one is an imperative method over an `array<T>` with a generic `less: (T, T) -> bool`.
  - Each is proved against a specification:
    - for any `less`, the array ends as a permutation of its input;
    - when `less` is a strict weak order, the array ends sorted;
    - inputs of length 0 and 1 come back unchanged;
    - an already sorted input comes back identical. For InsertionSort and BubbleSort this holds for any `less`. For the other three it holds under a strict total order, because they reorder ties. On a sorted pair `[x, y]` of tied elements, QuickSort's final pivot swap (`sort/sort.go:25`) and HeapSort's extraction swap (`sort/sort.go:121`) both give `[y, x]`, and merge takes `y` first (`sort/sort.go:58-60`, `MergeTieTakesRight`);
    - InsertionSort and BubbleSort are stable under a strict weak order: tied elements keep their input order.
  - `heapify` is proved in two forms. In the subtree form (`InSubtree`, `SubtreeHeap`), when the subtrees under node i's children are max-heaps, i's subtree is one afterwards, and nothing outside it moves. In the range form (`SiftReady`), when every node from lo other than i is in heap order and i's parent, when it is at lo or later, does not come before i's children, all nodes from lo are in heap order afterwards; HeapSort's build and extraction loops keep exactly this range invariant.
  - Merge is proved equal to a functional merge `Merged`. InsertionSort is proved equal to a functional insertion sort `InsertionSorted`. Both functions have their permutation and sortedness proved separately.
- `sort_examples.dfy` (module `SortExamples`) passes the library's fixed test vectors to all five sorts with integer `<` and proves each expected output. A copy of each input is sorted, `IsSorted` is checked, and the contents are compared, as the Go tests do.

`less` is any total Dafny function. Go's slices become arrays. QuickSort's sub-slices `arr[:i]` and `arr[i+1:]` become index ranges `[lo, hi)` of one array (`QuickSortRange`). MergeSort's `make` and `copy` become a `new` array initialised from the halves.

`merge` takes the right element whenever neither head must precede the other (`sort/sort.go:55-60`), so merge sort is not stable; `MergeTieTakesRight` exhibits two tied elements that it reorders. QuickSort and HeapSort swap across ties and are not stable either. InsertionSort shifts only past elements `key` must precede (`sort/sort.go:84`) and BubbleSort swaps only neighbours the right one of which must precede the left (`sort/sort.go:99`), so both are stable, and the model proves it.

## Model

| member | source | states |
|---|---|---|
| Sort.IsSorted | sort/sort.go:147-154 | returns true exactly when no index 1 <= i < len has less(arr[i], arr[i-1]); reads only |
| SortSpec.SortedIffPairwise | sort/sort.go:147-154 | under a strict weak order the adjacent check is equivalent to every pair being in order |
| SortSpec.SortedPermutationsEqual | sort/sort_test.go:78-87 | under a strict total order two sorted permutations of each other are equal, so one expected output per test input exists |
| Sort.Partition | sort/sort.go:15-25 | the pivot (the old last element) ends at p; every element before p must precede it and none after p does; only [lo, hi) is rearranged |
| Sort.Swap | sort/sort.go:20 | exchanges two elements of the range and changes nothing else |
| Sort.SwapWithin | sort/sort.go:20-25 | exchanging two elements of a range (equal indices included) is a permutation within that range; heapify's swap at line 141 uses it too |
| Sort.PivotJoinSorted | sort/sort.go:25-28 | sorted part before the pivot, then the pivot, then sorted part after it, is sorted |
| Sort.QuickSortRange | sort/sort.go:10-29 | sorting a sub-slice rearranges only that range and, under a strict weak order, leaves it sorted; recursion is on strictly shorter ranges |
| Sort.QuickSort | sort/sort.go:10-29 | permutation for any less; length <= 1 unchanged; sorted under a strict weak order; a sorted input is returned identical under a strict total order |
| Sort.Finish | sort/sort.go:10-124 | a permutation that is sorted under a strict weak order leaves short inputs unchanged and, under a strict total order, sorted inputs unchanged |
| Sort.MergeFrom | sort/sort.go:54-75 | what `merge` writes from the point where it has taken i elements of left and j of right: the head of left when it must precede the head of right, otherwise (ties included) the head of right, then the rest of whichever side remains; its length is the number of elements left on both sides |
| Sort.Merged | sort/sort.go:51-76 | the whole merge of left and right: as long as both together, and equal to the other side when one side is empty |
| Sort.MergeFromPermutation | sort/sort.go:51-76 | the merge from positions i, j holds exactly the remaining elements of left and right |
| Sort.MergeFromSorted | sort/sort.go:54-75 | merging sorted halves under a strict weak order gives a sorted result |
| Sort.MergedSortedPermutation | sort/sort.go:51-76 | the merge is a permutation of left ++ right and is sorted when both are (strict weak order) |
| Sort.MergeFromTakesLeft | sort/sort.go:55-57 | when less(left[i], right[j]) (or right is exhausted) the next merged element is left[i] |
| Sort.MergeFromTakesRight | sort/sort.go:58-60 | otherwise, ties included, the next merged element is right[j] |
| Sort.MergeTakeLeft | sort/sort.go:55-57 | writing left[i] at k == i + j extends the merged prefix |
| Sort.MergeTakeRight | sort/sort.go:58-60 | writing right[j] at k == i + j extends the merged prefix |
| Sort.MergeDone | sort/sort.go:65-75 | when both inputs are consumed, arr holds the whole merge |
| Sort.MergeTieTakesRight | sort/sort.go:55-60 | for two different tied elements, merging [x] and [y] gives [y, x], which does not keep their order: merge is not stable |
| Sort.Merge | sort/sort.go:51-76 | the three loops leave arr equal to the functional merge of left and right |
| Sort.MergeSort | sort/sort.go:32-48 | permutation for any less; length <= 1 unchanged; sorted under a strict weak order; a sorted input is returned identical under a strict total order |
| Sort.InsertBack | sort/sort.go:84-89 | the inner loop: key walks left past every element of p[..n] that it must precede and stops at the first one it need not precede; the result is one longer than the prefix (its elements, order and stability are the lemmas below) |
| Sort.InsertionSorted | sort/sort.go:80-90 | the outer loop: each element of s[..n] in turn dropped by `InsertBack` into the prefix built before it; the result has length n |
| Sort.InsertBackPermutation | sort/sort.go:84-89 | inserting key into a prefix yields exactly that prefix plus key |
| Sort.InsertBackPrefix | sort/sort.go:84-87 | the insertion reads only arr[0..i) |
| Sort.InsertBackSorted | sort/sort.go:84-89 | inserting a key into a sorted prefix keeps it sorted (asymmetric less) |
| Sort.InsertionSortedPermutation | sort/sort.go:80-90 | after i outer rounds the prefix is a permutation of the original prefix |
| Sort.InsertionSortedSorted | sort/sort.go:80-90 | after i outer rounds the prefix is sorted (asymmetric less) |
| Sort.InsertionSortedOfSorted | sort/sort.go:84 | on a sorted prefix nothing is shifted: the result is that prefix |
| Sort.InsertShift | sort/sort.go:84-87 | shifting arr[j] right when less(key, arr[j]) keeps the array as prefix, gap and tail of the insertion |
| Sort.InsertGap | sort/sort.go:89 | writing key into the gap where the inner loop stopped yields the prefix with key inserted, tail untouched |
| Sort.InsertDrop | sort/sort.go:89 | dropping key at j+1 makes arr[0..i+1) the insertion-sorted prefix and leaves the rest untouched |
| Sort.InsertionStep | sort/sort.go:81-89 | one outer round inserts arr[i] into the insertion-sorted prefix |
| Sort.InsertBackStable | sort/sort.go:84-89 | with incomparability transitive, key moves only past elements it must precede, none tied with anything key is tied with, so the ties of the prefix plus key keep their order |
| Sort.InsertionStepStable | sort/sort.go:80-90 | one more outer round keeps every tie list of the sorted prefix equal to that of the input prefix |
| Sort.InsertionSortedStable | sort/sort.go:80-90 | by induction, insertion sort keeps every tie list of its input |
| Sort.InsertionSort | sort/sort.go:79-91 | arr becomes the functional insertion sort of the input; hence permutation, length <= 1 unchanged, sorted under a strict weak order, a sorted input unchanged for any less, stable under a strict weak order |
| Sort.InsertionSortFinish | sort/sort.go:79-91 | the functional insertion sort of the whole input is a permutation, sorted and stable under a strict weak order, identity on sorted input |
| Sort.NoneAfterIff | sort/sort.go:98-103 | the recursive "nothing before j must come after s[j]" equals its quantified form |
| Sort.SettledIff | sort/sort.go:96-107 | the recursive "suffix from m is settled" equals: no element from m on must precede any element before it |
| Sort.BubbleStep | sort/sort.go:99-102 | a compare-and-swap keeps the multiset, never swaps on sorted input, extends the in-order prefix when it does not swap, moves nothing from m on, and under a strict weak order keeps every tie list |
| SortSpec.TiesSwap | sort/sort.go:99-100 | with incomparability transitive, exchanging neighbours one of which must precede the other keeps every tie list |
| Sort.BubbleStepOrder | sort/sort.go:98-103 | under a strict weak order a compare-and-swap keeps the suffix settled and makes arr[j+1] an element that must precede none of arr[0..j+1) |
| Sort.BubblePassDone | sort/sort.go:98-103 | a finished pass adds its last position to the settled suffix |
| Sort.BubbleBreak | sort/sort.go:104-106 | a pass with no swap over an array with a settled suffix means the whole array is sorted, so the break is sound |
| Sort.BubbleDone | sort/sort.go:96 | when the outer loop ends, the settled suffix covers the whole array |
| Sort.PassStart | sort/sort.go:97-98 | before the first comparison of a pass its state holds with nothing changed |
| Sort.PassAdvance | sort/sort.go:99-102 | one compare-and-swap, with swapped set exactly when it swaps, extends the pass state by one index |
| Sort.PassEnd | sort/sort.go:98-103 | the state at the end of a pass gives every property BubblePass promises, including that only arr[0..m) was rearranged |
| Sort.BubblePass | sort/sort.go:97-103 | one pass rearranges only arr[0..m), keeps the multiset, extends the settled suffix under a strict weak order, changes nothing and finds arr[0..m) in order when it reports no swap, never swaps on sorted input, and is stable under a strict weak order |
| Sort.BubbleSortFinish | sort/sort.go:96-107 | whether the outer loop ran out or broke after a pass with no swap, the result is short-input-unchanged, and sorted and stable under a strict weak order. The identity on sorted input is not derived here: the lemma is given it as `Sorted(orig, less) ==> s == orig`, which BubbleSort's loop invariant supplies |
| Sort.BubbleSort | sort/sort.go:94-108 | permutation for any less; length <= 1 unchanged; sorted under a strict weak order; a sorted input comes back unchanged for any less; stable under a strict weak order |
| Sort.HeapIff | sort/sort.go:127-144 | the recursive heap predicate equals "every node from lo on is in order with its children" |
| Sort.Largest | sort/sort.go:128-138 | the index heapify picks is i or one of its children below n |
| Sort.LargestIsMax | sort/sort.go:128-138 | the picked index holds an element no other of node and children must follow |
| Sort.HeapifyDone | sort/sort.go:140 | when the node is already the largest, the heap property holds |
| Sort.HeapifySwap | sort/sort.go:140-142 | swapping the node with its larger child fixes the node and leaves the child ready to sift |
| Sort.HeapLeaves | sort/sort.go:115 | nodes from n/2 on have no children and form a heap |
| Sort.BuildReady | sort/sort.go:115-117 | in the build loop the subtrees below node i are already heaps |
| Sort.HeapRootIsMax | sort/sort.go:120-121 | no element of a heap must come after its root |
| Sort.RootAbove | sort/sort.go:127-144 | the root is not ordered before any descendant, by induction on the path |
| Sort.ExtractStep | sort/sort.go:120-121 | moving the root behind the heap extends the settled suffix and leaves the rest ready to sift from 0 |
| Sort.ExtractSwap | sort/sort.go:121 | the extraction swap keeps the multiset and, under a strict weak order, extends the settled suffix |
| Sort.ExtractSettle | sort/sort.go:122 | re-heapifying the prefix keeps the multiset and the settled suffix |
| Sort.SettledPermutedPrefix | sort/sort.go:122 | rearranging the elements before a settled suffix leaves it settled |
| Sort.SubtreeTrans | sort/sort.go:129-130 | a descendant of a descendant of r is a descendant of r (children of k are 2k+1 and 2k+2) |
| Sort.SubtreeSplit | sort/sort.go:129-130 | every node of i's subtree other than i lies under left or right |
| Sort.SubtreesApart | sort/sort.go:129-130 | the subtrees under left and right share no node |
| Sort.SubtreeChildren | sort/sort.go:129-130 | the children of a node of r's subtree are in r's subtree |
| Sort.SubtreeRootAbove | sort/sort.go:127-144 | under a strict weak order no node of a heap-ordered subtree must come after its root |
| Sort.SubtreeHeapDone | sort/sort.go:140 | when node i is already the largest and the subtrees under its children are heaps, i's subtree is a heap |
| Sort.SubtreeSwapReady | sort/sort.go:140-142 | after swapping i with its larger child c, the subtrees under c's children are untouched and still heaps, so the recursive call may assume them |
| Sort.SiftFrame | sort/sort.go:140-142 | the swap plus a recursive sift that changes only c's subtree changes only i's subtree, and node i then holds an element of that subtree |
| Sort.SiftRoot | sort/sort.go:140-142 | after the swap and the recursive sift, node i holds the old larger child, and c's new root does not come after it |
| Sort.SiblingUnchanged | sort/sort.go:140-142 | nodes under the other child keep their heap order through the swap and the recursive sift |
| Sort.SubtreeSwap | sort/sort.go:140-142 | after the swap with the larger child and the recursive sift, i's subtree is a heap |
| Sort.Heapify | sort/sort.go:127-144 | rearranges only arr[i..n) and, of those, only nodes of i's subtree, leaving at node i an element of that subtree. Under a strict weak order: if the subtrees under i's two children are max-heaps, i's subtree is a max-heap afterwards. If every other node from lo is in heap order and i's parent dominates i's children, the nodes from lo form a max-heap afterwards; this range form is the one HeapSort's two loops use. Terminates because largest > i |
| Sort.HeapSort | sort/sort.go:111-124 | permutation for any less; length <= 1 unchanged; sorted under a strict weak order; a sorted input is returned identical under a strict total order |
| SortExamples.IntLessTotal | sort/sort_test.go:58-60 | integer `<` is a strict total order |
| SortExamples.SortWith | sort/sort_test.go:11-19 | each of the five sorts permutes and, under a strict weak order, sorts |
| SortExamples.SortCase | sort/sort_test.go:66-77 | a sorted copy of the input is a sorted permutation and IsSorted accepts it |
| SortExamples.Expected | sort/sort_test.go:79-87 | the sorted result equals the expected output |
| SortExamples.EmptyArray | sort/sort_test.go:26-30 | every sort returns [] for [] |
| SortExamples.SingleElement | sort/sort_test.go:31-35 | every sort returns [1] for [1] |
| SortExamples.AlreadySorted | sort/sort_test.go:36-40 | every sort returns [1,2,3,4,5] for [1,2,3,4,5] |
| SortExamples.ReverseSorted | sort/sort_test.go:41-45 | every sort returns [1,2,3,4,5] for [5,4,3,2,1] |
| SortExamples.RandomOrder | sort/sort_test.go:46-50 | every sort returns [1,1,2,3,3,4,5,5,5,6,9] for [3,1,4,1,5,9,2,6,5,3,5] |
| SortExamples.DuplicateElements | sort/sort_test.go:51-55 | every sort returns [1,1,2,2,3,3,3] for [3,3,3,1,1,2,2] |

## Left out

- `examples/main.go` is not part of this model. It is a demonstration program that only calls the library and prints, and its float example needs floating point.
- The benchmark in `sort/sort_test.go:94-131` is not part of this model. It uses random data, a time seed and timing.
- The type declarations `SortFunc` and `Less` (`sort/sort.go:4,7`) are type names only. `less` is the Dafny function type `(T, T) -> bool`, with no effects and defined on every pair.
- Stability is proved for InsertionSort and BubbleSort only. MergeSort, QuickSort and HeapSort reorder ties, so there is nothing to prove for them. `MergeTieTakesRight` proves this for merge. For QuickSort (the final swap at `sort/sort.go:25`) and HeapSort (the extraction swap at `sort/sort.go:121`), a sorted tied pair `[x, y]` comes out as `[y, x]`; the model does not prove this.
- `T(!new)`: the element type may not be a reference type, because the specification quantifies over elements. Go's `T any` also admits pointers, which the model does not cover.
- Running-time and recursion-depth bounds are left out. Termination is proved with `decreases`.
- Concurrency is left out: the code has none.
- Sort.Merge: requires `len(arr) == len(left) + len(right)` and that `arr` is neither buffer. MergeSort always calls it that way. The Go code would leave any further tail of a longer `arr` untouched, and the model does not state that.
- Sort.Swap: the swaps `arr[i], arr[j] = arr[j], arr[i]` at `sort/sort.go:20,25` are factored into one method. It carries the range it stays in as a ghost parameter.
- Sort.BubblePass: the inner loop of BubbleSort (`sort/sort.go:97-103`) is its own method returning `swapped`. The outer loop calls it once per pass with the same bounds. On `!swapped` the model returns from BubbleSort where the source breaks out of the loop; nothing follows the loop in the source, so the two behave the same.
- Sort.HeapSort: the two loops are `for ... downto` loops over the same indices as the Go loops. The extraction loop is guarded by `n > 0`, because a Dafny `for` needs its lower bound not to exceed its upper bound. For `n == 0` the Go loop runs zero times, which is the same behaviour.
- Sort.QuickSortRange: Go's recursion re-slices `arr[:i]` and `arr[i+1:]`. The model passes `[lo, hi)` bounds into the same array, so aliasing between the sub-slices and the whole is represented by index ranges only.

=== FILE: sort.dfy ===
/**
 * The five in-place comparison sorts of the library and its sortedness
 * check, over an array and a caller-supplied `less(a, b)` ("a must come
 * before b").
 *
 * Every sort accepts any `less` whatsoever: it stays in bounds, terminates
 * and leaves the array a permutation of its input. Only when `less` is a
 * strict weak order is the result promised to be sorted.
 */
module Sort {
  import opened SortSpec

  // ---------------------------------------------------------------------
  // IsSorted
  // ---------------------------------------------------------------------

  /** Scans adjacent pairs and reports whether none is out of order. */
  method IsSorted<T>(a: array<T>, less: (T, T) -> bool) returns (sorted: bool)
    ensures sorted <==> Sorted(a[..], less)
  {
    var i := 1;
    while i < a.Length
      invariant 1 <= i
      invariant forall k :: 0 < k < i && k < a.Length ==> !less(a[k], a[k - 1])
    {
      if less(a[i], a[i - 1]) {
        assert a[..][i] == a[i] && a[..][i - 1] == a[i - 1];
        return false;
      }
      i := i + 1;
    }
    return true;
  }

  // ---------------------------------------------------------------------
  // QuickSort
  // ---------------------------------------------------------------------

  /**
   * Lomuto partition of [lo, hi) around the pivot a[hi - 1]: afterwards the
   * pivot sits at `p`, everything before it must precede it and nothing
   * after it does. Holds for any `less`.
   */
  method Partition<T>(a: array<T>, lo: int, hi: int, less: (T, T) -> bool) returns (p: int)
    requires 0 <= lo < hi <= a.Length
    modifies a
    ensures lo <= p < hi
    ensures a[p] == old(a[hi - 1])
    ensures forall k :: lo <= k < p ==> less(a[k], a[p])
    ensures forall k :: p < k < hi ==> !less(a[k], a[p])
    ensures PermutedWithin(old(a[..]), a[..], lo, hi)
  {
    var pivot := a[hi - 1];
    var i := lo;
    for j := lo to hi - 1
      invariant lo <= i <= j
      invariant a[hi - 1] == pivot
      invariant forall k :: lo <= k < i ==> less(a[k], pivot)
      invariant forall k :: i <= k < j ==> !less(a[k], pivot)
      invariant PermutedWithin(old(a[..]), a[..], lo, hi)
    {
      if less(a[j], pivot) {
        ghost var before := a[..];
        Swap(a, lo, hi, i, j);
        PermutedWithinTrans(old(a[..]), before, a[..], lo, hi);
        i := i + 1;
      }
    }
    ghost var before := a[..];
    Swap(a, lo, hi, i, hi - 1);
    PermutedWithinTrans(old(a[..]), before, a[..], lo, hi);
    p := i;
  }

  /** `arr[i], arr[j] = arr[j], arr[i]` on indices inside [lo, hi). */
  method Swap<T>(a: array<T>, ghost lo: int, ghost hi: int, i: int, j: int)
    requires 0 <= lo <= i < hi <= a.Length && lo <= j < hi
    modifies a
    ensures a[i] == old(a[j]) && a[j] == old(a[i])
    ensures forall k :: 0 <= k < a.Length && k != i && k != j ==> a[k] == old(a[k])
    ensures PermutedWithin(old(a[..]), a[..], lo, hi)
  {
    a[i], a[j] := a[j], a[i];
    SwapWithin(old(a[..]), a[..], lo, hi, i, j);
  }

  /** Lemma: exchanging two elements of a range is a permutation within it. */
  lemma SwapWithin<T>(s: seq<T>, t: seq<T>, lo: int, hi: int, i: int, j: int)
    requires 0 <= lo <= i < hi <= |s| && lo <= j < hi
    requires t == s[i := s[j]][j := s[i]]
    ensures PermutedWithin(s, t, lo, hi)
  {
    if i < j {
      SwapMultiset(s, i, j);
    } else if j < i {
      assert t == s[j := s[i]][i := s[j]];
      SwapMultiset(s, j, i);
    } else {
      assert t == s;
    }
    PermutedWithinIntro(s, t, lo, hi);
  }

  /**
   * Lemma: a range holding an in-order part that must precede the pivot,
   * the pivot, and an in-order part that need not precede it, is in order.
   */
  lemma PivotJoinSorted<T(!new)>(s: seq<T>, lo: int, p: int, hi: int, less: (T, T) -> bool)
    requires Asymmetric(less) && NotLessTransitive(less)
    requires 0 <= lo <= p < hi <= |s|
    requires SortedPairwise(s[lo..p], less) && SortedPairwise(s[p + 1..hi], less)
    requires forall k :: lo <= k < p ==> less(s[k], s[p])
    requires forall k :: p < k < hi ==> !less(s[k], s[p])
    ensures SortedPairwise(s[lo..hi], less)
  {
    var r := s[lo..hi];
    forall i, j | 0 <= i < j < |r|
      ensures !less(r[j], r[i])
    {
      var x, y := lo + i, lo + j;
      assert r[i] == s[x] && r[j] == s[y];
      if y < p {
        assert s[x] == s[lo..p][i] && s[y] == s[lo..p][j];
      } else if y == p {
        assert less(s[x], s[p]);
      } else if x == p {
      } else if x < p {
        assert less(s[x], s[p]) && !less(s[y], s[p]);
      } else {
        assert s[x] == s[p + 1..hi][x - p - 1] && s[y] == s[p + 1..hi][y - p - 1];
      }
    }
  }

  /**
   * Lemma: partitioning, then sorting the part before the pivot, then the
   * part after it, sorts the whole range under a strict weak order.
   */
  lemma QuickSortJoin<T(!new)>(s1: seq<T>, s2: seq<T>, s3: seq<T>, lo: int, p: int, hi: int, less: (T, T) -> bool)
    requires StrictWeakOrder(less)
    requires PermutedWithin(s1, s2, lo, p) && PermutedWithin(s2, s3, p + 1, hi)
    requires p < hi
    requires forall k :: lo <= k < p ==> less(s1[k], s1[p])
    requires forall k :: p < k < hi ==> !less(s1[k], s1[p])
    requires SortedPairwise(s2[lo..p], less) && SortedPairwise(s3[p + 1..hi], less)
    ensures SortedPairwise(s3[lo..hi], less)
  {
    StrictWeakOrderIff(less);
    var pivot := s1[p];
    PermutedWithinWhole(s1, s2, lo, p);
    PermutedWithinWhole(s2, s3, p + 1, hi);
    PermutedWithinKeepsAll(s1, s2, lo, p, x => less(x, pivot));
    PermutedWithinKeepsAll(s2, s3, p + 1, hi, x => !less(x, pivot));
    assert s3[lo..p] == s2[lo..p];
    PivotJoinSorted(s3, lo, p, hi, less);
  }

  /** QuickSort on the sub-slice [lo, hi), as the recursive calls see it. */
  method QuickSortRange<T(!new)>(a: array<T>, lo: int, hi: int, less: (T, T) -> bool)
    requires 0 <= lo <= hi <= a.Length
    modifies a
    ensures PermutedWithin(old(a[..]), a[..], lo, hi)
    ensures StrictWeakOrder(less) ==> SortedPairwise(a[lo..hi], less)
    decreases hi - lo
  {
    if hi - lo <= 1 {
      return;
    }
    ghost var s0 := a[..];
    var p := Partition(a, lo, hi, less);
    ghost var s1 := a[..];
    QuickSortRange(a, lo, p, less);
    ghost var s2 := a[..];
    QuickSortRange(a, p + 1, hi, less);
    ghost var s3 := a[..];
    PermutedWithinWiden(s1, s2, lo, p, lo, hi);
    PermutedWithinWiden(s2, s3, p + 1, hi, lo, hi);
    PermutedWithinTrans(s0, s1, s2, lo, hi);
    PermutedWithinTrans(s0, s2, s3, lo, hi);
    if StrictWeakOrder(less) {
      QuickSortJoin(s1, s2, s3, lo, p, hi, less);
    }
  }

  /** Sorts the whole array with Lomuto-partition quicksort. */
  method QuickSort<T(!new)>(a: array<T>, less: (T, T) -> bool)
    modifies a
    ensures multiset(a[..]) == multiset(old(a[..]))
    ensures a.Length <= 1 ==> a[..] == old(a[..])
    ensures StrictWeakOrder(less) ==> Sorted(a[..], less)
    ensures StrictTotalOrder(less) && Sorted(old(a[..]), less) ==> a[..] == old(a[..])
  {
    QuickSortRange(a, 0, a.Length, less);
    PermutedWithinWhole(old(a[..]), a[..], 0, a.Length);
    Finish(old(a[..]), a[..], less);
  }

  /**
   * What every sort concludes from "permutation, and pairwise sorted under a
   * strict weak order".
   */
  lemma Finish<T(!new)>(before: seq<T>, after: seq<T>, less: (T, T) -> bool)
    requires multiset(after) == multiset(before)
    requires StrictWeakOrder(less) ==> SortedPairwise(after, less)
    ensures |before| <= 1 ==> after == before
    ensures StrictWeakOrder(less) ==> Sorted(after, less)
    ensures StrictTotalOrder(less) && Sorted(before, less) ==> after == before
  {
    if |before| <= 1 {
      ShortPermutationUnchanged(before, after);
    }
    if StrictWeakOrder(less) {
      SortedIffPairwise(after, less);
    }
    if StrictTotalOrder(less) && Sorted(before, less) {
      SortedPermutationsEqual(after, before, less);
    }
  }

  // ---------------------------------------------------------------------
  // MergeSort
  // ---------------------------------------------------------------------

  /**
   * The sequence `merge` writes from the point where it has taken `i`
   * elements of `left` and `j` of `right`: repeatedly the head of `left` if
   * it must precede the head of `right`, otherwise (ties included) the head
   * of `right`; once one side is used up, the rest of the other.
   */
  function MergeFrom<T>(left: seq<T>, right: seq<T>, i: int, j: int, less: (T, T) -> bool): (r: seq<T>)
    requires 0 <= i <= |left| && 0 <= j <= |right|
    ensures |r| == |left| - i + |right| - j
    decreases |left| - i + |right| - j
  {
    if i == |left| then right[j..]
    else if j == |right| then left[i..]
    else if less(left[i], right[j]) then [left[i]] + MergeFrom(left, right, i + 1, j, less)
    else [right[j]] + MergeFrom(left, right, i, j + 1, less)
  }

  /** The whole merge of `left` and `right`. */
  function Merged<T>(left: seq<T>, right: seq<T>, less: (T, T) -> bool): (r: seq<T>)
    ensures |r| == |left| + |right|
    ensures left == [] ==> r == right
    ensures right == [] ==> r == left
  {
    MergeFrom(left, right, 0, 0, less)
  }

  /**
   * Lemma: on a tie the merge takes the right element first, so two tied
   * but different elements come out in the reverse of their input order:
   * merge sort does not keep ties in order.
   */
  lemma MergeTieTakesRight<T(!new)>(x: T, y: T, less: (T, T) -> bool)
    requires Incomparable(less, x, y) && !less(x, x) && x != y
    ensures Merged([x], [y], less) == [y, x]
    ensures !Stable([x, y], Merged([x], [y], less), less)
  {
    TiesSingleton(x, x, less);
    TiesSingleton(y, x, less);
    TiesConcat([x], [y], x, less);
    TiesConcat([y], [x], x, less);
    assert [x] + [y] == [x, y] && [y] + [x] == [y, x];
    assert MergeFrom([x], [y], 0, 1, less) == [x];
    StableIff([x, y], [y, x], less);
    assert Ties([y, x], x, less) != Ties([x, y], x, less);
  }

  /** Lemma: the merge holds exactly the elements of both inputs. */
  lemma {:induction false} MergeFromPermutation<T>(left: seq<T>, right: seq<T>, i: int, j: int, less: (T, T) -> bool)
    requires 0 <= i <= |left| && 0 <= j <= |right|
    ensures multiset(MergeFrom(left, right, i, j, less)) == multiset(left[i..]) + multiset(right[j..])
    decreases |left| - i + |right| - j
  {
    if i == |left| || j == |right| {
    } else if less(left[i], right[j]) {
      MergeFromPermutation(left, right, i + 1, j, less);
      MergeFromTakesLeft(left, right, i, j, less);
      MultisetOfSuffix(left, i);
    } else {
      MergeFromPermutation(left, right, i, j + 1, less);
      MergeFromTakesRight(left, right, i, j, less);
      MultisetOfSuffix(right, j);
    }
  }

  /** Lemma: a suffix holds its first element and the rest of the suffix. */
  lemma MultisetOfSuffix<T>(s: seq<T>, i: int)
    requires 0 <= i < |s|
    ensures multiset(s[i..]) == multiset{s[i]} + multiset(s[i + 1..])
  {
    assert s[i..] == [s[i]] + s[i + 1..];
  }

  /** Lemma: a property of every remaining element of both inputs holds of every element of the merge. */
  lemma {:induction false} MergeFromKeepsAll<T>(left: seq<T>, right: seq<T>, i: int, j: int, less: (T, T) -> bool, p: T -> bool)
    requires 0 <= i <= |left| && 0 <= j <= |right|
    requires forall k :: i <= k < |left| ==> p(left[k])
    requires forall k :: j <= k < |right| ==> p(right[k])
    ensures forall k :: 0 <= k < |MergeFrom(left, right, i, j, less)| ==> p(MergeFrom(left, right, i, j, less)[k])
    decreases |left| - i + |right| - j
  {
    var m := MergeFrom(left, right, i, j, less);
    if i == |left| {
      assert forall k :: 0 <= k < |m| ==> m[k] == right[j + k];
    } else if j == |right| {
      assert forall k :: 0 <= k < |m| ==> m[k] == left[i + k];
    } else if less(left[i], right[j]) {
      MergeFromKeepsAll(left, right, i + 1, j, less, p);
    } else {
      MergeFromKeepsAll(left, right, i, j + 1, less, p);
    }
  }

  /** Lemma: an element no later than everything in a sorted sequence can go in front of it. */
  lemma ConsSorted<T>(x: T, s: seq<T>, less: (T, T) -> bool)
    requires SortedPairwise(s, less)
    requires forall k :: 0 <= k < |s| ==> !less(s[k], x)
    ensures SortedPairwise([x] + s, less)
  {
    var r := [x] + s;
    forall i, j | 0 <= i < j < |r|
      ensures !less(r[j], r[i])
    {
      assert r[j] == s[j - 1];
      if i > 0 {
        assert r[i] == s[i - 1];
      }
    }
  }

  /** Lemma: a suffix of a sorted sequence is sorted. */
  lemma SuffixSorted<T>(s: seq<T>, i: int, less: (T, T) -> bool)
    requires SortedPairwise(s, less) && 0 <= i <= |s|
    ensures SortedPairwise(s[i..], less)
  {
    forall p, q | 0 <= p < q < |s| - i
      ensures !less(s[i..][q], s[i..][p])
    {
      assert s[i..][q] == s[i + q] && s[i..][p] == s[i + p];
    }
  }

  /** Lemma: merging the remainders of two sorted inputs under a strict weak order gives a sorted sequence. */
  lemma {:induction false} MergeFromSorted<T(!new)>(left: seq<T>, right: seq<T>, i: int, j: int, less: (T, T) -> bool)
    requires StrictWeakOrder(less)
    requires SortedPairwise(left, less) && SortedPairwise(right, less)
    requires 0 <= i <= |left| && 0 <= j <= |right|
    ensures SortedPairwise(MergeFrom(left, right, i, j, less), less)
    decreases |left| - i + |right| - j
  {
    if i == |left| {
      SuffixSorted(right, j, less);
    } else if j == |right| {
      SuffixSorted(left, i, less);
    } else if less(left[i], right[j]) {
      var x := left[i];
      StrictWeakOrderIff(less);
      RestNotBefore(right, j, x, less);
      MergeFromSorted(left, right, i + 1, j, less);
      MergeFromKeepsAll(left, right, i + 1, j, less, y => !less(y, x));
      ConsSorted(x, MergeFrom(left, right, i + 1, j, less), less);
    } else {
      var x := right[j];
      StrictWeakOrderIff(less);
      RestNotBefore(left, i, x, less);
      MergeFromSorted(left, right, i, j + 1, less);
      MergeFromKeepsAll(left, right, i, j + 1, less, y => !less(y, x));
      ConsSorted(x, MergeFrom(left, right, i, j + 1, less), less);
    }
  }

  /** Lemma: nothing from index `j` on of a sorted sequence must precede `x` if `s[j]` need not. */
  lemma RestNotBefore<T(!new)>(s: seq<T>, j: int, x: T, less: (T, T) -> bool)
    requires NotLessTransitive(less) && SortedPairwise(s, less)
    requires 0 <= j < |s| && !less(s[j], x)
    ensures forall k :: j <= k < |s| ==> !less(s[k], x)
  {
    forall k | j < k < |s|
      ensures !less(s[k], x)
    {
      assert !less(s[k], s[j]);
    }
  }

  /**
   * Lemma: the merge is a permutation of both inputs together, and sorted
   * when both inputs are sorted under a strict weak order.
   */
  lemma MergedSortedPermutation<T(!new)>(left: seq<T>, right: seq<T>, less: (T, T) -> bool)
    ensures multiset(Merged(left, right, less)) == multiset(left + right)
    ensures StrictWeakOrder(less) && Sorted(left, less) && Sorted(right, less) ==>
      Sorted(Merged(left, right, less), less)
  {
    MergeFromPermutation(left, right, 0, 0, less);
    assert left[0..] == left && right[0..] == right;
    if StrictWeakOrder(less) && Sorted(left, less) && Sorted(right, less) {
      SortedIffPairwise(left, less);
      SortedIffPairwise(right, less);
      MergeFromSorted(left, right, 0, 0, less);
      SortedIffPairwise(Merged(left, right, less), less);
    }
  }

  /**
   * `out` starts with what `merge` writes on its way to having taken `i`
   * elements of `left` and `j` of `right`: each slot holds the head taken
   * at that step, and the head of `left` was taken exactly when it must
   * precede the head of `right` or `right` was used up.
   */
  ghost predicate MergeTrace<T>(left: seq<T>, right: seq<T>, i: int, j: int, out: seq<T>, less: (T, T) -> bool)
    decreases i + j
  {
    && 0 <= i <= |left| && 0 <= j <= |right| && i + j <= |out|
    && (i + j == 0
        || (&& 0 < i && (j == |right| || less(left[i - 1], right[j]))
            && out[i + j - 1] == left[i - 1] && MergeTrace(left, right, i - 1, j, out, less))
        || (&& 0 < j && (i == |left| || !less(left[i], right[j - 1]))
            && out[i + j - 1] == right[j - 1] && MergeTrace(left, right, i, j - 1, out, less)))
  }

  /** Lemma: the trace depends only on the slots written so far. */
  lemma {:induction false} MergeTraceFrame<T>(left: seq<T>, right: seq<T>, i: int, j: int, out: seq<T>, out': seq<T>, less: (T, T) -> bool)
    requires MergeTrace(left, right, i, j, out, less)
    requires i + j <= |out'| && forall m :: 0 <= m < i + j ==> out'[m] == out[m]
    ensures MergeTrace(left, right, i, j, out', less)
    decreases i + j
  {
    if i + j > 0 {
      if 0 < i && (j == |right| || less(left[i - 1], right[j])) && out[i + j - 1] == left[i - 1] && MergeTrace(left, right, i - 1, j, out, less) {
        MergeTraceFrame(left, right, i - 1, j, out, out', less);
      } else {
        MergeTraceFrame(left, right, i, j - 1, out, out', less);
      }
    }
  }

  /** Lemma: the merge goes on with the head of `left` when it must precede the head of `right` or `right` is used up. */
  lemma MergeFromTakesLeft<T>(left: seq<T>, right: seq<T>, i: int, j: int, less: (T, T) -> bool)
    requires 0 <= i < |left| && 0 <= j <= |right| && (j == |right| || less(left[i], right[j]))
    ensures MergeFrom(left, right, i, j, less) == [left[i]] + MergeFrom(left, right, i + 1, j, less)
  {
    if j == |right| {
      assert left[i..] == [left[i]] + left[i + 1..];
    }
  }

  /** Lemma: the merge goes on with the head of `right` when the head of `left` need not precede it or `left` is used up. */
  lemma MergeFromTakesRight<T>(left: seq<T>, right: seq<T>, i: int, j: int, less: (T, T) -> bool)
    requires 0 <= i <= |left| && 0 <= j < |right| && (i == |left| || !less(left[i], right[j]))
    ensures MergeFrom(left, right, i, j, less) == [right[j]] + MergeFrom(left, right, i, j + 1, less)
  {
    if i == |left| {
      assert right[j..] == [right[j]] + right[j + 1..];
    }
  }

  /** Lemma: a suffix that starts with `x` followed by `t` puts `x` at its start and `t` after it. */
  lemma SuffixCons<T>(s: seq<T>, n: int, x: T, t: seq<T>)
    requires 0 <= n <= |s| && s[n..] == [x] + t
    ensures n < |s| && s[n] == x && s[n + 1..] == t
  {
    assert s[n] == s[n..][0];
    assert s[n + 1..] == s[n..][1..];
  }

  /** Lemma: what the trace has written is the start of the merge, and the merge of what is left is its rest. */
  lemma {:induction false} MergeTraceMerged<T>(left: seq<T>, right: seq<T>, i: int, j: int, out: seq<T>, less: (T, T) -> bool)
    requires MergeTrace(left, right, i, j, out, less)
    ensures MergeAgrees(left, right, i, j, out, less)
    decreases i + j
  {
    if i + j == 0 {
    } else if 0 < i && (j == |right| || less(left[i - 1], right[j])) && out[i + j - 1] == left[i - 1] && MergeTrace(left, right, i - 1, j, out, less) {
      MergeTraceMerged(left, right, i - 1, j, out, less);
      MergeAgreesLeft(left, right, i - 1, j, out, less);
    } else {
      MergeTraceMerged(left, right, i, j - 1, out, less);
      MergeAgreesRight(left, right, i, j - 1, out, less);
    }
  }

  /**
   * The first `i + j` slots of `out` agree with the merge, and the merge of
   * `left[i..]` and `right[j..]` is the rest of it.
   */
  ghost predicate MergeAgrees<T>(left: seq<T>, right: seq<T>, i: int, j: int, out: seq<T>, less: (T, T) -> bool)
    requires 0 <= i <= |left| && 0 <= j <= |right|
  {
    var merged := Merged(left, right, less);
    && i + j <= |merged| && i + j <= |out|
    && merged[i + j..] == MergeFrom(left, right, i, j, less)
    && forall m :: 0 <= m < i + j ==> out[m] == merged[m]
  }

  lemma MergeAgreesLeft<T>(left: seq<T>, right: seq<T>, i: int, j: int, out: seq<T>, less: (T, T) -> bool)
    requires 0 <= i < |left| && 0 <= j <= |right| && (j == |right| || less(left[i], right[j]))
    requires MergeAgrees(left, right, i, j, out, less) && i + j < |out| && out[i + j] == left[i]
    ensures MergeAgrees(left, right, i + 1, j, out, less)
  {
    MergeFromTakesLeft(left, right, i, j, less);
    SuffixCons(Merged(left, right, less), i + j, left[i], MergeFrom(left, right, i + 1, j, less));
  }

  lemma MergeAgreesRight<T>(left: seq<T>, right: seq<T>, i: int, j: int, out: seq<T>, less: (T, T) -> bool)
    requires 0 <= i <= |left| && 0 <= j < |right| && (i == |left| || !less(left[i], right[j]))
    requires MergeAgrees(left, right, i, j, out, less) && i + j < |out| && out[i + j] == right[j]
    ensures MergeAgrees(left, right, i, j + 1, out, less)
  {
    MergeFromTakesRight(left, right, i, j, less);
    SuffixCons(Merged(left, right, less), i + j, right[j], MergeFrom(left, right, i, j + 1, less));
  }

  /** Lemma: writing the head of `left` is a step of the merge when it must precede the head of `right` or `right` is used up. */
  lemma MergeTakeLeft<T>(left: seq<T>, right: seq<T>, i: int, j: int, before: seq<T>, after: seq<T>, less: (T, T) -> bool)
    requires MergeTrace(left, right, i, j, before, less)
    requires i < |left| && (j == |right| || less(left[i], right[j]))
    requires i + j < |before| && after == before[i + j := left[i]]
    ensures MergeTrace(left, right, i + 1, j, after, less)
  {
    MergeTraceFrame(left, right, i, j, before, after, less);
  }

  /** Lemma: writing the head of `right` is a step of the merge when the head of `left` need not precede it or `left` is used up. */
  lemma MergeTakeRight<T>(left: seq<T>, right: seq<T>, i: int, j: int, before: seq<T>, after: seq<T>, less: (T, T) -> bool)
    requires MergeTrace(left, right, i, j, before, less)
    requires j < |right| && (i == |left| || !less(left[i], right[j]))
    requires i + j < |before| && after == before[i + j := right[j]]
    ensures MergeTrace(left, right, i, j + 1, after, less)
  {
    MergeTraceFrame(left, right, i, j, before, after, less);
  }

  /** Lemma: once both inputs are used up, the merge has been written out in full. */
  lemma MergeDone<T>(left: seq<T>, right: seq<T>, out: seq<T>, less: (T, T) -> bool)
    requires MergeTrace(left, right, |left|, |right|, out, less) && |out| == |left| + |right|
    ensures out == Merged(left, right, less)
  {
    MergeTraceMerged(left, right, |left|, |right|, out, less);
  }

  /**
   * Writes the merge of `left` and `right` into the front of `a`, in three
   * loops: while both have elements, then the rest of `left`, then the
   * rest of `right`.
   */
  method Merge<T>(a: array<T>, left: array<T>, right: array<T>, less: (T, T) -> bool)
    requires a.Length == left.Length + right.Length
    requires a != left && a != right
    modifies a
    ensures a[..] == Merged(left[..], right[..], less)
  {
    ghost var l, r := left[..], right[..];
    var i, j, k := 0, 0, 0;
    while i < left.Length && j < right.Length
      invariant 0 <= i <= |l| && 0 <= j <= |r| && k == i + j
      invariant MergeTrace(l, r, i, j, a[..], less)
    {
      ghost var before := a[..];
      if less(left[i], right[j]) {
        a[k] := left[i];
        MergeTakeLeft(l, r, i, j, before, a[..], less);
        i := i + 1;
      } else {
        a[k] := right[j];
        MergeTakeRight(l, r, i, j, before, a[..], less);
        j := j + 1;
      }
      k := k + 1;
    }
    while i < left.Length
      invariant 0 <= i <= |l| && 0 <= j <= |r| && k == i + j
      invariant MergeTrace(l, r, i, j, a[..], less)
      invariant i == |l| || j == |r|
    {
      ghost var before := a[..];
      a[k] := left[i];
      MergeTakeLeft(l, r, i, j, before, a[..], less);
      i := i + 1;
      k := k + 1;
    }
    while j < right.Length
      invariant 0 <= i <= |l| && 0 <= j <= |r| && k == i + j
      invariant MergeTrace(l, r, i, j, a[..], less)
      invariant i == |l|
    {
      ghost var before := a[..];
      a[k] := right[j];
      MergeTakeRight(l, r, i, j, before, a[..], less);
      j := j + 1;
      k := k + 1;
    }
    MergeDone(l, r, a[..], less);
  }

  /**
   * Sorts `a` by splitting it in half, sorting copies of both halves and
   * merging them back into `a`.
   */
  method MergeSort<T(!new)>(a: array<T>, less: (T, T) -> bool)
    modifies a
    ensures multiset(a[..]) == multiset(old(a[..]))
    ensures a.Length <= 1 ==> a[..] == old(a[..])
    ensures StrictWeakOrder(less) ==> Sorted(a[..], less)
    ensures StrictTotalOrder(less) && Sorted(old(a[..]), less) ==> a[..] == old(a[..])
    decreases a.Length
  {
    if a.Length <= 1 {
      return;
    }
    var mid := a.Length / 2;
    var left := new T[mid](k requires 0 <= k < mid reads a => a[k]);
    var right := new T[a.Length - mid](k requires 0 <= k < a.Length - mid reads a => a[mid + k]);
    assert a[..] == left[..] + right[..];
    ghost var halves := left[..] + right[..];
    MergeSort(left, less);
    MergeSort(right, less);
    ghost var sortedHalves := left[..] + right[..];
    Merge(a, left, right, less);
    MergedSortedPermutation(left[..], right[..], less);
    assert multiset(sortedHalves) == multiset(halves);
    if StrictWeakOrder(less) {
      SortedIffPairwise(a[..], less);
    }
    Finish(old(a[..]), a[..], less);
  }

  // ---------------------------------------------------------------------
  // InsertionSort
  // ---------------------------------------------------------------------

  /**
   * `p[..n]` with `key` dropped in the way insertion sort's inner loop does
   * it: walking left past every element that `key` must precede and
   * stopping at the first one it need not precede.
   */
  function InsertBack<T>(p: seq<T>, n: int, key: T, less: (T, T) -> bool): (r: seq<T>)
    requires 0 <= n <= |p|
    ensures |r| == n + 1
    decreases n
  {
    if n == 0 || !less(key, p[n - 1]) then p[..n] + [key]
    else InsertBack(p, n - 1, key, less) + [p[n - 1]]
  }

  /** What insertion sort makes of `s[..n]`: each element in turn dropped into the sorted prefix before it. */
  function InsertionSorted<T>(s: seq<T>, n: int, less: (T, T) -> bool): (r: seq<T>)
    requires 0 <= n <= |s|
    ensures |r| == n
    decreases n
  {
    if n == 0 then [] else InsertBack(InsertionSorted(s, n - 1, less), n - 1, s[n - 1], less)
  }

  /** Lemma: the prefix of length `n` holds the one of length `n - 1` and element `n - 1`. */
  lemma MultisetOfPrefix<T>(s: seq<T>, n: int)
    requires 0 < n <= |s|
    ensures multiset(s[..n]) == multiset(s[..n - 1]) + multiset{s[n - 1]}
  {
    assert s[..n] == s[..n - 1] + [s[n - 1]];
  }

  /** Lemma: the prefix of length `n` is the one of length `n - 1` followed by element `n - 1`. */
  lemma PrefixSnoc<T>(s: seq<T>, n: int)
    requires 0 < n <= |s|
    ensures s[..n] == s[..n - 1] + [s[n - 1]]
  {
  }

  /** Lemma: the prefix of a sequence as long as the sequence is the sequence. */
  lemma PrefixWhole<T>(s: seq<T>)
    ensures s[..|s|] == s
  {
  }

  /** Lemma: dropping `key` into the whole of `p` adds exactly `key`. */
  lemma InsertBackWhole<T>(p: seq<T>, key: T, less: (T, T) -> bool)
    ensures multiset(InsertBack(p, |p|, key, less)) == multiset(p) + multiset{key}
  {
    InsertBackPermutation(p, |p|, key, less);
    PrefixWhole(p);
  }

  /** Lemma: dropping `key` in adds exactly `key`. */
  lemma {:induction false} InsertBackPermutation<T>(p: seq<T>, n: int, key: T, less: (T, T) -> bool)
    requires 0 <= n <= |p|
    ensures multiset(InsertBack(p, n, key, less)) == multiset(p[..n]) + multiset{key}
    decreases n
  {
    if n > 0 && less(key, p[n - 1]) {
      InsertBackPermutation(p, n - 1, key, less);
      MultisetOfPrefix(p, n);
    }
  }

  /** Lemma: dropping `key` into `p[..n]` depends on nothing beyond `p[..n]`. */
  lemma {:induction false} InsertBackPrefix<T>(p: seq<T>, q: seq<T>, n: int, key: T, less: (T, T) -> bool)
    requires 0 <= n <= |p| && n <= |q| && p[..n] == q[..n]
    ensures InsertBack(p, n, key, less) == InsertBack(q, n, key, less)
    decreases n
  {
    if n > 0 {
      assert p[n - 1] == p[..n][n - 1] && q[n - 1] == q[..n][n - 1];
      assert p[..n - 1] == p[..n][..n - 1] && q[..n - 1] == q[..n][..n - 1];
      InsertBackPrefix(p, q, n - 1, key, less);
    }
  }

  /** Lemma: the last element after dropping `key` in is `key` or the old last element. */
  lemma InsertBackLast<T>(p: seq<T>, n: int, key: T, less: (T, T) -> bool)
    requires 0 <= n <= |p|
    ensures InsertBack(p, n, key, less)[n] == key || (n > 0 && InsertBack(p, n, key, less)[n] == p[n - 1])
  {
  }

  /** Lemma: the prefix of a sorted prefix is sorted. */
  lemma SortedPrefix<T>(s: seq<T>, n: int, less: (T, T) -> bool)
    requires 0 < n <= |s| && Sorted(s[..n], less)
    ensures Sorted(s[..n - 1], less)
  {
    assert forall k :: 0 <= k < n - 1 ==> s[..n - 1][k] == s[..n][k];
  }

  /**
   * Lemma: dropping `key` into a sorted prefix keeps it sorted, for any
   * asymmetric `less` (in particular a strict weak order).
   */
  lemma {:induction false} InsertBackSorted<T(!new)>(p: seq<T>, n: int, key: T, less: (T, T) -> bool)
    requires 0 <= n <= |p|
    requires Asymmetric(less) && Sorted(p[..n], less)
    ensures Sorted(InsertBack(p, n, key, less), less)
    decreases n
  {
    if n > 0 && less(key, p[n - 1]) {
      SortedPrefix(p, n, less);
      InsertBackSorted(p, n - 1, key, less);
      InsertBackLast(p, n - 1, key, less);
      if n > 1 {
        assert !less(p[n - 1], p[n - 2]) by { assert p[n - 1] == p[..n][n - 1] && p[n - 2] == p[..n][n - 2]; }
      }
      SortedSnoc(InsertBack(p, n - 1, key, less), p[n - 1], less);
    } else {
      SortedSnoc(p[..n], key, less);
    }
  }

  /** Lemma: an element no earlier than the last of a sorted sequence extends it. */
  lemma SortedSnoc<T>(s: seq<T>, x: T, less: (T, T) -> bool)
    requires Sorted(s, less) && (s == [] || !less(x, s[|s| - 1]))
    ensures Sorted(s + [x], less)
  {
  }

  /** Lemma: what insertion sort computes is a permutation of its input. */
  lemma {:induction false} InsertionSortedPermutation<T>(s: seq<T>, n: int, less: (T, T) -> bool)
    requires 0 <= n <= |s|
    ensures multiset(InsertionSorted(s, n, less)) == multiset(s[..n])
    decreases n
  {
    if n > 0 {
      InsertionSortedPermutation(s, n - 1, less);
      InsertBackWhole(InsertionSorted(s, n - 1, less), s[n - 1], less);
      MultisetOfPrefix(s, n);
    }
  }

  /** Lemma: what insertion sort computes is sorted under any asymmetric `less`. */
  lemma {:induction false} InsertionSortedSorted<T(!new)>(s: seq<T>, n: int, less: (T, T) -> bool)
    requires 0 <= n <= |s| && Asymmetric(less)
    ensures Sorted(InsertionSorted(s, n, less), less)
    decreases n
  {
    if n > 0 {
      InsertionSortedSorted(s, n - 1, less);
      var p := InsertionSorted(s, n - 1, less);
      assert p[..n - 1] == p;
      InsertBackSorted(p, n - 1, s[n - 1], less);
    }
  }

  /** Lemma: insertion sort leaves an already sorted prefix as it is, for any `less`. */
  lemma {:induction false} InsertionSortedOfSorted<T>(s: seq<T>, n: int, less: (T, T) -> bool)
    requires 0 <= n <= |s| && Sorted(s[..n], less)
    ensures InsertionSorted(s, n, less) == s[..n]
    decreases n
  {
    if n > 0 {
      SortedPrefix(s, n, less);
      InsertionSortedOfSorted(s, n - 1, less);
      var p := InsertionSorted(s, n - 1, less);
      if n > 1 {
        assert !less(s[n - 1], s[n - 2]) by { assert s[n - 1] == s[..n][n - 1] && s[n - 2] == s[..n][n - 2]; }
        assert p[n - 2] == s[n - 2];
      }
      assert p[..n - 1] + [s[n - 1]] == s[..n];
    }
  }

  /**
   * Lemma: `key` moves left only past elements it must precede, none of
   * which is tied with anything `key` is tied with, so dropping it in keeps
   * every group of ties in order.
   */
  lemma {:induction false} InsertBackStable<T(!new)>(p: seq<T>, n: int, key: T, x: T, less: (T, T) -> bool)
    requires 0 <= n <= |p| && IncomparabilityTransitive(less)
    ensures Ties(InsertBack(p, n, key, less), x, less) == Ties(p[..n], x, less) + Ties([key], x, less)
    decreases n
  {
    if n == 0 || !less(key, p[n - 1]) {
      TiesConcat(p[..n], [key], x, less);
    } else {
      var y := p[n - 1];
      InsertBackStable(p, n - 1, key, x, less);
      TiesConcat(InsertBack(p, n - 1, key, less), [y], x, less);
      PrefixSnoc(p, n);
      TiesConcat(p[..n - 1], [y], x, less);
      TiesApart(key, y, x, less);
      AppendEither(Ties(p[..n - 1], x, less), Ties([key], x, less), Ties([y], x, less));
    }
  }

  /** Lemma: insertion sort keeps every group of ties of its input in order. */
  lemma {:induction false} InsertionSortedStable<T(!new)>(s: seq<T>, n: int, x: T, less: (T, T) -> bool)
    requires 0 <= n <= |s| && IncomparabilityTransitive(less)
    ensures Ties(InsertionSorted(s, n, less), x, less) == Ties(s[..n], x, less)
    decreases n
  {
    if n > 0 {
      InsertionSortedStable(s, n - 1, x, less);
      InsertionStepStable(s, n, x, less);
    }
  }

  /** Lemma: one more outer iteration keeps the ties of the sorted prefix as in the input. */
  lemma InsertionStepStable<T(!new)>(s: seq<T>, n: int, x: T, less: (T, T) -> bool)
    requires 0 < n <= |s| && IncomparabilityTransitive(less)
    requires Ties(InsertionSorted(s, n - 1, less), x, less) == Ties(s[..n - 1], x, less)
    ensures Ties(InsertionSorted(s, n, less), x, less) == Ties(s[..n], x, less)
  {
    var p := InsertionSorted(s, n - 1, less);
    calc {
      Ties(InsertionSorted(s, n, less), x, less);
      Ties(InsertBack(p, n - 1, s[n - 1], less), x, less);
      { InsertBackStable(p, n - 1, s[n - 1], x, less); PrefixWhole(p); }
      Ties(p, x, less) + Ties([s[n - 1]], x, less);
      Ties(s[..n - 1], x, less) + Ties([s[n - 1]], x, less);
      { TiesConcat(s[..n - 1], [s[n - 1]], x, less); }
      Ties(s[..n - 1] + [s[n - 1]], x, less);
      { PrefixSnoc(s, n); }
      Ties(s[..n], x, less);
    }
  }

  /** Lemma: before the first outer iteration, a one-element prefix is already insertion-sorted. */
  lemma InsertionSortedSingleton<T>(s: seq<T>, less: (T, T) -> bool)
    requires s != []
    ensures s == InsertionSorted(s, 1, less) + s[1..]
  {
    assert s == [s[0]] + s[1..];
  }

  /** Lemma: at the start of the inner loop nothing has been moved yet. */
  lemma InsertStart<T>(prev: seq<T>, i: int, key: T, less: (T, T) -> bool)
    requires 0 <= i < |prev|
    ensures prev == prev[..i + 1] + prev[i..i] + prev[i + 1..]
    ensures InsertBack(prev, i, key, less) == InsertBack(prev, i, key, less) + prev[i..i]
  {
    assert prev[i..i] == [];
    assert prev == prev[..i + 1] + prev[i + 1..];
  }

  /**
   * Lemma: one pass of the inner loop moves an element that `key` must
   * precede one slot right. The inner loop keeps `prev` with the run
   * `prev[j + 1..i]` shifted one slot right, and dropping `key` into
   * `prev[..i]` stays dropping it into `prev[..j + 1]` followed by that run.
   */
  lemma InsertShift<T>(prev: seq<T>, cur: seq<T>, after: seq<T>, i: int, j: int, key: T, less: (T, T) -> bool)
    requires 0 <= j < i < |prev|
    requires cur == prev[..j + 2] + prev[j + 1..i] + prev[i + 1..]
    requires InsertBack(prev, i, key, less) == InsertBack(prev, j + 1, key, less) + prev[j + 1..i]
    requires less(key, cur[j]) && after == cur[j + 1 := cur[j]]
    ensures after == prev[..j + 1] + prev[j..i] + prev[i + 1..]
    ensures InsertBack(prev, i, key, less) == InsertBack(prev, j, key, less) + prev[j..i]
  {
    assert cur[j] == prev[j];
    assert prev[j..i] == [prev[j]] + prev[j + 1..i];
    assert prev[..j + 2] == prev[..j + 1] + [prev[j + 1]];
  }

  /**
   * Lemma: when the inner loop stops at `j`, writing `key` at `j + 1`
   * completes one outer iteration.
   */
  lemma InsertDrop<T>(orig: seq<T>, prev: seq<T>, cur: seq<T>, after: seq<T>, i: int, j: int, key: T, next: int, less: (T, T) -> bool)
    requires -1 <= j < i < |orig| == |prev| && next == i + 1
    requires prev == InsertionSorted(orig, i, less) + orig[i..] && key == prev[i]
    requires cur == prev[..j + 2] + prev[j + 1..i] + prev[i + 1..]
    requires InsertBack(prev, i, key, less) == InsertBack(prev, j + 1, key, less) + prev[j + 1..i]
    requires (j < 0 || !less(key, cur[j])) && after == cur[j + 1 := key]
    ensures after == InsertionSorted(orig, next, less) + orig[next..]
  {
    InsertGap(prev, cur, after, i, j, key, less);
    assert prev[i + 1..] == orig[i + 1..] by {
      assert forall m :: i < m < |prev| ==> prev[m] == orig[m];
    }
    InsertionStep(orig, prev, i, less);
  }

  /** Lemma: the key written into the gap where the inner loop stopped completes the insertion. */
  lemma InsertGap<T>(prev: seq<T>, cur: seq<T>, after: seq<T>, i: int, j: int, key: T, less: (T, T) -> bool)
    requires -1 <= j < i < |prev|
    requires cur == prev[..j + 2] + prev[j + 1..i] + prev[i + 1..]
    requires InsertBack(prev, i, key, less) == InsertBack(prev, j + 1, key, less) + prev[j + 1..i]
    requires (j < 0 || !less(key, cur[j])) && after == cur[j + 1 := key]
    ensures after == InsertBack(prev, i, key, less) + prev[i + 1..]
  {
    if j >= 0 {
      assert cur[j] == prev[j];
    }
    assert InsertBack(prev, j + 1, key, less) == prev[..j + 1] + [key];
  }

  /** Lemma: one outer iteration drops input element `i` into the sorted prefix. */
  lemma InsertionStep<T>(orig: seq<T>, prev: seq<T>, i: int, less: (T, T) -> bool)
    requires 0 <= i < |orig| == |prev|
    requires prev == InsertionSorted(orig, i, less) + orig[i..]
    ensures InsertBack(prev, i, prev[i], less) == InsertionSorted(orig, i + 1, less)
  {
    var p := InsertionSorted(orig, i, less);
    assert prev[i] == orig[i];
    assert prev[..i] == p[..i] == p;
    InsertBackPrefix(prev, p, i, orig[i], less);
  }

  /**
   * Sorts `a` by insertion: each element in turn is taken out as `key`, the
   * larger elements before it shift one slot right, and `key` goes into the
   * gap.
   */
  method InsertionSort<T(!new)>(a: array<T>, less: (T, T) -> bool)
    modifies a
    ensures a[..] == InsertionSorted(old(a[..]), a.Length, less)
    ensures multiset(a[..]) == multiset(old(a[..]))
    ensures a.Length <= 1 ==> a[..] == old(a[..])
    ensures StrictWeakOrder(less) ==> Sorted(a[..], less)
    ensures Sorted(old(a[..]), less) ==> a[..] == old(a[..])
    ensures StrictWeakOrder(less) ==> Stable(old(a[..]), a[..], less)
  {
    ghost var orig := a[..];
    var i := 1;
    if a.Length > 0 {
      InsertionSortedSingleton(orig, less);
    }
    while i < a.Length
      invariant 1 <= i && (a.Length == 0 || i <= a.Length)
      invariant a.Length > 0 ==> a[..] == InsertionSorted(orig, i, less) + orig[i..]
    {
      var key := a[i];
      var j := i - 1;
      ghost var prev := a[..];
      InsertStart(prev, i, key, less);
      while j >= 0 && less(key, a[j])
        invariant -1 <= j < i
        invariant a[..] == prev[..j + 2] + prev[j + 1..i] + prev[i + 1..]
        invariant InsertBack(prev, i, key, less) == InsertBack(prev, j + 1, key, less) + prev[j + 1..i]
      {
        ghost var cur := a[..];
        a[j + 1] := a[j];
        InsertShift(prev, cur, a[..], i, j, key, less);
        j := j - 1;
      }
      ghost var cur := a[..];
      a[j + 1] := key;
      i := i + 1;
      InsertDrop(orig, prev, cur, a[..], i - 1, j, key, i, less);
    }
    InsertionSortFinish(orig, a[..], i, less);
  }

  /** Lemma: the insertion-sorted whole input has the properties every sort promises. */
  lemma InsertionSortFinish<T(!new)>(orig: seq<T>, result: seq<T>, n: int, less: (T, T) -> bool)
    requires |orig| == |result| && n >= |orig|
    requires |orig| > 0 ==> n == |orig| && result == InsertionSorted(orig, n, less) + orig[n..]
    ensures result == InsertionSorted(orig, |orig|, less)
    ensures multiset(result) == multiset(orig)
    ensures |orig| <= 1 ==> result == orig
    ensures StrictWeakOrder(less) ==> Sorted(result, less)
    ensures Sorted(orig, less) ==> result == orig
    ensures StrictWeakOrder(less) ==> Stable(orig, result, less)
  {
    PrefixWhole(orig);
    InsertionSortedPermutation(orig, |orig|, less);
    if |orig| <= 1 {
      ShortPermutationUnchanged(orig, result);
    }
    if StrictWeakOrder(less) {
      StrictWeakOrderIff(less);
      InsertionSortedSorted(orig, |orig|, less);
      forall x
        ensures Ties(result, x, less) == Ties(orig, x, less)
      {
        InsertionSortedStable(orig, |orig|, x, less);
      }
      StableIff(orig, result, less);
    }
    if Sorted(orig, less) {
      InsertionSortedOfSorted(orig, |orig|, less);
    }
  }

  // ---------------------------------------------------------------------
  // BubbleSort
  // ---------------------------------------------------------------------

  /** No element of `s[..c]` must come after `s[j]`. */
  ghost predicate NoneAfter<T>(s: seq<T>, j: int, c: int, less: (T, T) -> bool)
    requires 0 <= j < |s| && c <= j
    decreases c
  {
    c <= 0 || (!less(s[j], s[c - 1]) && NoneAfter(s, j, c - 1, less))
  }

  lemma {:induction false} NoneAfterIff<T>(s: seq<T>, j: int, c: int, less: (T, T) -> bool)
    requires 0 <= j < |s| && 0 <= c <= j
    ensures NoneAfter(s, j, c, less) <==> forall k :: 0 <= k < c ==> !less(s[j], s[k])
    decreases c
  {
    if c > 0 {
      NoneAfterIff(s, j, c - 1, less);
    }
  }

  /**
   * The elements from index `m` on are in their final places: none of them
   * must come before any element to its left.
   */
  ghost predicate Settled<T>(s: seq<T>, m: int, less: (T, T) -> bool)
    requires 0 <= m
    decreases |s| - m
  {
    m >= |s| || (NoneAfter(s, m, m, less) && Settled(s, m + 1, less))
  }

  lemma {:induction false} SettledIff<T>(s: seq<T>, m: int, less: (T, T) -> bool)
    requires 0 <= m
    ensures Settled(s, m, less) <==> forall k, t :: 0 <= k < t < |s| && m <= t ==> !less(s[t], s[k])
    decreases |s| - m
  {
    if m < |s| {
      SettledIff(s, m + 1, less);
      NoneAfterIff(s, m, m, less);
    }
  }

  /** No element of `s[..j]` must come after `s[j]`: the pass carries a maximum. */
  ghost predicate PassMax<T>(s: seq<T>, j: int, less: (T, T) -> bool) {
    0 <= j < |s| && NoneAfter(s, j, j, less)
  }

  /** No element of `s[..j + 1]` must precede its left neighbour. */
  ghost predicate InOrderThrough<T>(s: seq<T>, j: int, less: (T, T) -> bool) {
    forall k :: 0 < k <= j && k < |s| ==> !less(s[k], s[k - 1])
  }

  /**
   * Lemma: one compare-and-swap of a pass at `j` and `j + 1` keeps the
   * elements; when it does not swap, the pass so far has found its range in
   * order; under a strict weak order it carries the maximum forward, leaves
   * the suffix from `m` on settled and, since it only exchanges neighbours
   * one of which must precede the other, keeps every group of ties in order.
   */
  lemma BubbleStep<T(!new)>(prev: seq<T>, cur: seq<T>, after: seq<T>, j: int, next: int, m: int, less: (T, T) -> bool)
    requires 0 <= j && next == j + 1 < m <= |cur|
    requires after == if less(cur[j + 1], cur[j]) then cur[j := cur[j + 1]][j + 1 := cur[j]] else cur
    ensures multiset(after) == multiset(cur)
    ensures Sorted(cur, less) ==> !less(cur[j + 1], cur[j])
    ensures !less(cur[j + 1], cur[j]) && InOrderThrough(cur, j, less) ==> InOrderThrough(after, next, less)
    ensures StrictWeakOrder(less) && Settled(cur, m, less) && PassMax(cur, j, less) ==>
              Settled(after, m, less) && PassMax(after, next, less)
    ensures StrictWeakOrder(less) && Stable(prev, cur, less) ==> Stable(prev, after, less)
    ensures after[m..] == cur[m..]
  {
    if less(cur[j + 1], cur[j]) {
      SwapMultiset(cur, j, j + 1);
      if StrictWeakOrder(less) {
        forall x
          ensures Ties(after, x, less) == Ties(cur, x, less)
        {
          TiesSwap(cur, j, x, less);
        }
        StableIff(cur, after, less);
      }
    }
    if StrictWeakOrder(less) && Settled(cur, m, less) && PassMax(cur, j, less) {
      StrictWeakOrderIff(less);
      BubbleStepOrder(cur, after, j, m, less);
    }
  }

  /** Lemma: a rearrangement that leaves everything from `m` on in place permutes within `[0, m)`. */
  lemma PermutedPrefix<T>(s: seq<T>, t: seq<T>, m: int)
    requires 0 <= m <= |s| == |t| && multiset(s) == multiset(t) && s[m..] == t[m..]
    ensures PermutedWithin(s, t, 0, m)
  {
    forall k | m <= k < |s|
      ensures s[k] == t[k]
    {
      assert s[k] == s[m..][k - m];
    }
    PermutedWithinIntro(s, t, 0, m);
  }

  /** Lemma: exchanging two elements keeps the multiset. */
  lemma SwapMultiset<T>(s: seq<T>, i: int, j: int)
    requires 0 <= i < j < |s|
    ensures multiset(s[i := s[j]][j := s[i]]) == multiset(s)
  {
    var u := s[i := s[j]];
    assert multiset(u) == multiset(s) - multiset{s[i]} + multiset{s[j]};
    assert u[j] == s[j];
  }

  /**
   * Lemma: under a strict weak order, one compare-and-swap below the settled
   * suffix from `m` on carries the maximum forward and leaves the suffix
   * settled.
   */
  lemma BubbleStepOrder<T(!new)>(cur: seq<T>, after: seq<T>, j: int, m: int, less: (T, T) -> bool)
    requires Asymmetric(less) && NotLessTransitive(less)
    requires 0 <= j && j + 1 < m <= |cur|
    requires after == if less(cur[j + 1], cur[j]) then cur[j := cur[j + 1]][j + 1 := cur[j]] else cur
    requires Settled(cur, m, less) && PassMax(cur, j, less)
    ensures Settled(after, m, less) && PassMax(after, j + 1, less)
  {
    SettledIff(cur, m, less);
    NoneAfterIff(cur, j, j, less);
    forall k, t | 0 <= k < t < |after| && m <= t
      ensures !less(after[t], after[k])
    {
      if k == j || k == j + 1 {
        assert !less(cur[t], cur[j]) && !less(cur[t], cur[j + 1]);
      }
    }
    forall k | 0 <= k < j + 1
      ensures !less(after[j + 1], after[k])
    {
      if k < j {
        assert !less(cur[j], cur[k]);
      }
    }
    SettledIff(after, m, less);
    NoneAfterIff(after, j + 1, j + 1, less);
  }

  /** Lemma: at the end of a pass the maximum it carried joins the settled suffix. */
  lemma BubblePassDone<T>(s: seq<T>, m: int, less: (T, T) -> bool)
    requires 0 < m <= |s|
    ensures Settled(s, m, less) && PassMax(s, m - 1, less) ==> Settled(s, m - 1, less)
  {
  }

  /** Lemma: once the settled suffix covers all but at most one element, everything is in order. */
  lemma BubbleDone<T>(s: seq<T>, m: int, less: (T, T) -> bool)
    requires 0 <= m <= 1 && Settled(s, m, less)
    ensures SortedPairwise(s, less)
  {
    SettledIff(s, m, less);
  }

  /**
   * Lemma: a pass that swapped nothing found its range in order, and with the
   * settled suffix that makes the whole sequence sorted: the early exit is
   * sound.
   */
  lemma BubbleBreak<T(!new)>(s: seq<T>, m: int, less: (T, T) -> bool)
    requires 0 <= m <= |s|
    ensures StrictWeakOrder(less) && Settled(s, m, less) && InOrderThrough(s, m - 1, less) ==>
              SortedPairwise(s, less)
  {
    if StrictWeakOrder(less) && Settled(s, m, less) && InOrderThrough(s, m - 1, less) {
      StrictWeakOrderIff(less);
      SettledIff(s, m, less);
      assert Sorted(s[..m], less) by {
        forall q | 0 < q < m
          ensures !less(s[..m][q], s[..m][q - 1])
        {
        }
      }
      forall k, t | 0 <= k < t < |s|
        ensures !less(s[t], s[k])
      {
        if t < m {
          SortedSpan(s[..m], less, k, t);
        }
      }
    }
  }

  /**
   * One pass of bubble sort over `a[..m]`: adjacent compare-and-swap from
   * the left, which carries a maximum up to index `m - 1`. Reports whether
   * it swapped anything.
   */
  method BubblePass<T(!new)>(a: array<T>, m: int, less: (T, T) -> bool) returns (swapped: bool)
    requires 1 <= m <= a.Length
    modifies a
    ensures multiset(a[..]) == multiset(old(a[..]))
    ensures StrictWeakOrder(less) && Settled(old(a[..]), m, less) ==> Settled(a[..], m - 1, less)
    ensures !swapped ==> a[..] == old(a[..]) && InOrderThrough(a[..], m - 1, less)
    ensures Sorted(old(a[..]), less) ==> !swapped
    ensures PermutedWithin(old(a[..]), a[..], 0, m)
    ensures StrictWeakOrder(less) ==> Stable(old(a[..]), a[..], less)
  {
    ghost var prev := a[..];
    swapped := false;
    var j := 0;
    PassStart(prev, m, less);
    while j < m - 1
      invariant 0 <= j <= m - 1
      invariant PassState(prev, a[..], j, m, swapped, less)
    {
      ghost var cur := a[..];
      ghost var swappedBefore := swapped;
      if less(a[j + 1], a[j]) {
        a[j], a[j + 1] := a[j + 1], a[j];
        swapped := true;
      }
      j := j + 1;
      PassAdvance(prev, cur, a[..], j - 1, j, m, swappedBefore, swapped, less);
    }
    PassEnd(prev, a[..], m, swapped, less);
  }

  /**
   * What a pass over `[0, m)` that started from `prev` has established once
   * it has compared the neighbours up to index `j`: the elements are kept
   * and nothing from `m` on has moved; under a strict weak order the suffix
   * from `m` on is still settled, `s[j]` is a maximum of `s[..j + 1]` and
   * ties are in their old order; and while nothing was swapped the range
   * compared so far was in order.
   */
  ghost predicate PassState<T(!new)>(prev: seq<T>, s: seq<T>, j: int, m: int, swapped: bool, less: (T, T) -> bool) {
    && 0 <= j < m <= |s| == |prev|
    && multiset(s) == multiset(prev)
    && s[m..] == prev[m..]
    && (StrictWeakOrder(less) && Settled(prev, m, less) ==> Settled(s, m, less) && PassMax(s, j, less))
    && (!swapped ==> s == prev && InOrderThrough(s, j, less))
    && (Sorted(prev, less) ==> !swapped)
    && (StrictWeakOrder(less) ==> Stable(prev, s, less))
  }

  /** Lemma: before the first comparison nothing has changed. */
  lemma PassStart<T(!new)>(prev: seq<T>, m: int, less: (T, T) -> bool)
    requires 1 <= m <= |prev|
    ensures PassState(prev, prev, 0, m, false, less)
  {
    NoneAfterIff(prev, 0, 0, less);
    StableIff(prev, prev, less);
  }

  /** Lemma: one compare-and-swap extends what the pass has established by one index. */
  lemma PassAdvance<T(!new)>(prev: seq<T>, cur: seq<T>, after: seq<T>, j: int, next: int, m: int,
                             swapped: bool, swapped': bool, less: (T, T) -> bool)
    requires next == j + 1 < m && PassState(prev, cur, j, m, swapped, less)
    requires after == if less(cur[j + 1], cur[j]) then cur[j := cur[j + 1]][j + 1 := cur[j]] else cur
    requires swapped' == (swapped || less(cur[j + 1], cur[j]))
    ensures PassState(prev, after, next, m, swapped', less)
  {
    BubbleStep(prev, cur, after, j, next, m, less);
  }

  /** Lemma: at the end of the pass its state gives everything `BubblePass` promises. */
  lemma PassEnd<T(!new)>(prev: seq<T>, s: seq<T>, m: int, swapped: bool, less: (T, T) -> bool)
    requires 1 <= m && PassState(prev, s, m - 1, m, swapped, less)
    ensures multiset(s) == multiset(prev)
    ensures StrictWeakOrder(less) && Settled(prev, m, less) ==> Settled(s, m - 1, less)
    ensures !swapped ==> s == prev && InOrderThrough(s, m - 1, less)
    ensures Sorted(prev, less) ==> !swapped
    ensures PermutedWithin(prev, s, 0, m)
    ensures StrictWeakOrder(less) ==> Stable(prev, s, less)
  {
    BubblePassDone(s, m, less);
    PermutedPrefix(prev, s, m);
  }

  /**
   * Sorts `a` by repeated passes of adjacent compare-and-swap, each pass
   * one shorter than the last, stopping early after a pass that swapped
   * nothing.
   */
  method BubbleSort<T(!new)>(a: array<T>, less: (T, T) -> bool)
    modifies a
    ensures multiset(a[..]) == multiset(old(a[..]))
    ensures a.Length <= 1 ==> a[..] == old(a[..])
    ensures StrictWeakOrder(less) ==> Sorted(a[..], less)
    ensures Sorted(old(a[..]), less) ==> a[..] == old(a[..])
    ensures StrictWeakOrder(less) ==> Stable(old(a[..]), a[..], less)
  {
    ghost var orig := a[..];
    ghost var swo := StrictWeakOrder(less);
    var n := a.Length;
    var i := 0;
    while i < n - 1
      invariant 0 <= i <= n
      invariant multiset(a[..]) == multiset(orig)
      invariant swo ==> Settled(a[..], n - i, less)
      invariant Sorted(orig, less) ==> i == 0 && a[..] == orig
      invariant swo ==> Stable(orig, a[..], less)
    {
      var swapped := BubblePass(a, n - i, less);
      if !swapped {
        BubbleSortFinish(orig, a[..], n - i, less);
        return;
      }
      i := i + 1;
    }
    BubbleSortFinish(orig, a[..], n - i, less);
  }

  /**
   * Lemma: bubble sort stops either when the unsettled prefix has at most
   * one element or after a pass that found it in order; either way the
   * result has the properties every sort promises.
   */
  lemma BubbleSortFinish<T(!new)>(orig: seq<T>, s: seq<T>, m: int, less: (T, T) -> bool)
    requires 0 <= m <= |s| && multiset(s) == multiset(orig)
    requires m <= 1 || InOrderThrough(s, m - 1, less)
    requires StrictWeakOrder(less) ==> Settled(s, m, less) && Stable(orig, s, less)
    requires Sorted(orig, less) ==> s == orig
    ensures |orig| <= 1 ==> s == orig
    ensures StrictWeakOrder(less) ==> Sorted(s, less)
    ensures StrictWeakOrder(less) ==> Stable(orig, s, less)
  {
    if StrictWeakOrder(less) {
      if m <= 1 {
        BubbleDone(s, m, less);
      } else {
        BubbleBreak(s, m, less);
      }
    }
    Finish(orig, s, less);
  }

  // ---------------------------------------------------------------------
  // HeapSort
  // ---------------------------------------------------------------------

  /** Node `k` of the heap `s[..n]` must not come before either of its children. */
  ghost predicate HeapAt<T>(s: seq<T>, k: int, n: int, less: (T, T) -> bool)
    requires 0 <= k && n <= |s|
  {
    && (2 * k + 1 < n ==> !less(s[k], s[2 * k + 1]))
    && (2 * k + 2 < n ==> !less(s[k], s[2 * k + 2]))
  }

  /** Every node from `lo` on of `s[..n]` is in max-heap order with its children. */
  ghost predicate Heap<T>(s: seq<T>, lo: int, n: int, less: (T, T) -> bool)
    requires 0 <= lo && n <= |s|
    decreases n - lo
  {
    lo >= n || (HeapAt(s, lo, n, less) && Heap(s, lo + 1, n, less))
  }

  lemma {:induction false} HeapIff<T>(s: seq<T>, lo: int, n: int, less: (T, T) -> bool)
    requires 0 <= lo && n <= |s|
    ensures Heap(s, lo, n, less) <==> forall k :: lo <= k < n ==> HeapAt(s, k, n, less)
    decreases n - lo
  {
    if lo < n {
      HeapIff(s, lo + 1, n, less);
    }
  }

  /**
   * What `heapify` may assume of the nodes from `lo` on when it sifts node
   * `i` down: every other node is in heap order, and the parent of `i`, when
   * it is in range, must not come before the children of `i`.
   */
  ghost predicate SiftReady<T>(s: seq<T>, lo: int, i: int, n: int, less: (T, T) -> bool)
    requires 0 <= lo <= i < n <= |s|
  {
    && (forall k :: lo <= k < n && k != i ==> HeapAt(s, k, n, less))
    && (0 < i && lo <= (i - 1) / 2 ==>
          && (2 * i + 1 < n ==> !less(s[(i - 1) / 2], s[2 * i + 1]))
          && (2 * i + 2 < n ==> !less(s[(i - 1) / 2], s[2 * i + 2])))
  }

  /** The index `heapify` picks among node `i` and its children below `n`. */
  function Largest<T>(s: seq<T>, n: int, i: int, less: (T, T) -> bool): (l: int)
    requires 0 <= i < n <= |s|
    ensures l == i || l == 2 * i + 1 || l == 2 * i + 2
    ensures i <= l < n
  {
    var l := if 2 * i + 1 < n && less(s[i], s[2 * i + 1]) then 2 * i + 1 else i;
    if 2 * i + 2 < n && less(s[l], s[2 * i + 2]) then 2 * i + 2 else l
  }

  /** Lemma: under a strict weak order the picked index holds a maximum of the node and its children. */
  lemma LargestIsMax<T(!new)>(s: seq<T>, n: int, i: int, less: (T, T) -> bool)
    requires Asymmetric(less) && NotLessTransitive(less)
    requires 0 <= i < n <= |s|
    ensures !less(s[Largest(s, n, i, less)], s[i])
    ensures 2 * i + 1 < n ==> !less(s[Largest(s, n, i, less)], s[2 * i + 1])
    ensures 2 * i + 2 < n ==> !less(s[Largest(s, n, i, less)], s[2 * i + 2])
  {
  }

  /** Lemma: when node `i` already holds the maximum, sifting is finished. */
  lemma HeapifyDone<T(!new)>(s: seq<T>, lo: int, i: int, n: int, less: (T, T) -> bool)
    requires Asymmetric(less) && NotLessTransitive(less)
    requires 0 <= lo <= i < n <= |s|
    requires SiftReady(s, lo, i, n, less) && Largest(s, n, i, less) == i
    ensures Heap(s, lo, n, less)
  {
    LargestIsMax(s, n, i, less);
    assert HeapAt(s, i, n, less);
    HeapIff(s, lo, n, less);
  }

  /**
   * Lemma: swapping node `i` with its larger child leaves node `i` in heap
   * order and the child ready to be sifted down in turn.
   */
  lemma HeapifySwap<T(!new)>(s: seq<T>, t: seq<T>, lo: int, i: int, n: int, less: (T, T) -> bool)
    requires Asymmetric(less) && NotLessTransitive(less)
    requires 0 <= lo <= i < n <= |s|
    requires SiftReady(s, lo, i, n, less)
    requires Largest(s, n, i, less) != i
    requires t == s[i := s[Largest(s, n, i, less)]][Largest(s, n, i, less) := s[i]]
    ensures SiftReady(t, lo, Largest(s, n, i, less), n, less)
  {
    var l := Largest(s, n, i, less);
    LargestIsMax(s, n, i, less);
    assert HeapAt(s, l, n, less);
    forall k | lo <= k < n && k != l
      ensures HeapAt(t, k, n, less)
    {
      if k != i && i > 0 && k == (i - 1) / 2 {
        assert HeapAt(s, k, n, less);
        assert 2 * k + 1 == i || 2 * k + 2 == i;
      } else if k != i {
        assert HeapAt(s, k, n, less);
        assert 2 * k + 1 != i && 2 * k + 2 != i;
        assert 2 * k + 1 != l && 2 * k + 2 != l;
      }
    }
  }

  /** Lemma: nodes in the second half of `s[..n]` have no children, so they form a heap. */
  lemma HeapLeaves<T>(s: seq<T>, m: int, n: int, less: (T, T) -> bool)
    requires 0 <= n / 2 <= m && n <= |s|
    ensures Heap(s, m, n, less)
  {
    HeapIff(s, m, n, less);
  }

  /** Lemma: in the build phase the node being sifted has its subtrees already in heap order. */
  lemma BuildReady<T>(s: seq<T>, i: int, n: int, less: (T, T) -> bool)
    requires 0 <= i < n <= |s| && Heap(s, i + 1, n, less)
    ensures SiftReady(s, i, i, n, less)
  {
    HeapIff(s, i + 1, n, less);
  }

  /** Lemma: under a strict weak order no node of a heap must come after its root. */
  lemma HeapRootIsMax<T(!new)>(s: seq<T>, n: int, less: (T, T) -> bool)
    requires Asymmetric(less) && NotLessTransitive(less)
    requires 0 < n <= |s| && Heap(s, 0, n, less)
    ensures forall k :: 0 <= k < n ==> !less(s[0], s[k])
  {
    HeapIff(s, 0, n, less);
    forall k | 0 <= k < n
      ensures !less(s[0], s[k])
    {
      RootAbove(s, n, k, less);
    }
  }

  lemma {:induction false} RootAbove<T(!new)>(s: seq<T>, n: int, k: int, less: (T, T) -> bool)
    requires Asymmetric(less) && NotLessTransitive(less)
    requires 0 <= k < n <= |s|
    requires forall q :: 0 <= q < n ==> HeapAt(s, q, n, less)
    ensures !less(s[0], s[k])
    decreases k
  {
    if k > 0 {
      var p := (k - 1) / 2;
      RootAbove(s, n, p, less);
      assert HeapAt(s, p, n, less);
      assert !less(s[p], s[k]);
    }
  }

  /**
   * Lemma: moving the root of the heap `s[..i + 1]` to index `i` extends the
   * settled suffix by one and leaves the rest ready to be sifted from the
   * root.
   */
  lemma ExtractStep<T(!new)>(s: seq<T>, t: seq<T>, i: int, less: (T, T) -> bool)
    requires Asymmetric(less) && NotLessTransitive(less)
    requires 0 < i < |s| && t == s[0 := s[i]][i := s[0]]
    requires Heap(s, 0, i + 1, less) && Settled(s, i + 1, less)
    ensures Settled(t, i, less) && SiftReady(t, 0, 0, i, less)
  {
    HeapRootIsMax(s, i + 1, less);
    HeapIff(s, 0, i + 1, less);
    SettledIff(s, i + 1, less);
    forall k, u | 0 <= k < u < |t| && i <= u
      ensures !less(t[u], t[k])
    {
      if u == i {
        assert !less(s[0], s[k]) || k == 0;
      } else if k == 0 {
        assert !less(s[u], s[i]);
      } else if k == i {
        assert !less(s[u], s[0]);
      }
    }
    SettledIff(t, i, less);
    forall k | 0 <= k < i && k != 0
      ensures HeapAt(t, k, i, less)
    {
      assert HeapAt(s, k, i + 1, less);
    }
  }

  /** Lemma: the swap of an extraction round keeps the elements and, under a strict weak order, extends the settled suffix. */
  lemma ExtractSwap<T(!new)>(s: seq<T>, t: seq<T>, i: int, less: (T, T) -> bool)
    requires 0 < i < |s| && t == s[0 := s[i]][i := s[0]]
    ensures multiset(t) == multiset(s)
    ensures StrictWeakOrder(less) && Heap(s, 0, i + 1, less) && Settled(s, i + 1, less) ==>
              Settled(t, i, less) && SiftReady(t, 0, 0, i, less)
  {
    SwapMultiset(s, 0, i);
    if StrictWeakOrder(less) && Heap(s, 0, i + 1, less) && Settled(s, i + 1, less) {
      StrictWeakOrderIff(less);
      ExtractStep(s, t, i, less);
    }
  }

  /** Lemma: sifting the root of an extraction round keeps the elements and the settled suffix. */
  lemma ExtractSettle<T>(t: seq<T>, u: seq<T>, i: int, less: (T, T) -> bool)
    requires 0 <= i && PermutedWithin(t, u, 0, i)
    ensures multiset(u) == multiset(t)
    ensures Settled(t, i, less) ==> Settled(u, i, less)
  {
    PermutedWithinWhole(t, u, 0, i);
    if Settled(t, i, less) {
      SettledPermutedPrefix(t, u, i, less);
    }
  }

  /** Lemma: rearranging the elements before a settled suffix leaves it settled. */
  lemma SettledPermutedPrefix<T>(s: seq<T>, t: seq<T>, m: int, less: (T, T) -> bool)
    requires 0 <= m && PermutedWithin(s, t, 0, m) && Settled(s, m, less)
    ensures Settled(t, m, less)
  {
    SettledIff(s, m, less);
    PermutedWithinWhole(s, t, 0, m);
    forall u | m <= u < |t|
      ensures forall k :: 0 <= k < m ==> !less(t[u], t[k])
    {
      PermutedWithinKeepsAll(s, t, 0, m, x => !less(s[u], x));
    }
    SettledIff(t, m, less);
  }

  /** Node `k` is node `r` of the heap or one of its descendants. */
  ghost predicate InSubtree(k: int, r: int)
    decreases k
  {
    k == r || (0 <= r < k && InSubtree((k - 1) / 2, r))
  }

  /** Every node of the subtree of `r` in `s[..n]` is in heap order with its children. */
  ghost predicate SubtreeHeap<T>(s: seq<T>, r: int, n: int, less: (T, T) -> bool)
    requires 0 <= r && n <= |s|
  {
    forall k :: r <= k < n && InSubtree(k, r) ==> HeapAt(s, k, n, less)
  }

  /** `t` agrees with `s` everywhere outside the nodes of the subtree of `r` below `n`. */
  ghost predicate SubtreeFrame<T>(s: seq<T>, t: seq<T>, r: int, n: int) {
    |t| == |s| && forall k :: 0 <= k < |s| && !(k < n && InSubtree(k, r)) ==> t[k] == s[k]
  }

  /** Node `r` of `t` holds an element that `s` held at some node of the subtree of `r` below `n`. */
  ghost predicate RootFrom<T>(s: seq<T>, t: seq<T>, r: int, n: int)
    requires 0 <= r < |t| && n <= |s|
  {
    exists k :: r <= k < n && InSubtree(k, r) && t[r] == s[k]
  }

  /** Lemma: a descendant of a descendant of `r` is a descendant of `r`. */
  lemma {:induction false} SubtreeTrans(k: int, c: int, r: int)
    requires InSubtree(k, c) && InSubtree(c, r)
    ensures InSubtree(k, r)
    decreases k
  {
    if k != c {
      SubtreeTrans((k - 1) / 2, c, r);
    }
  }

  /** Lemma: every node of the subtree of `i` other than `i` lies under one of its two children. */
  lemma {:induction false} SubtreeSplit(k: int, i: int)
    requires 0 <= i && InSubtree(k, i) && k != i
    ensures InSubtree(k, 2 * i + 1) || InSubtree(k, 2 * i + 2)
    decreases k
  {
    var p := (k - 1) / 2;
    if p != i {
      SubtreeSplit(p, i);
    }
  }

  /** Lemma: the subtrees of the two children of `i` share no node. */
  lemma {:induction false} SubtreesApart(k: int, i: int)
    requires 0 <= i
    ensures !(InSubtree(k, 2 * i + 1) && InSubtree(k, 2 * i + 2))
    decreases k
  {
    if k > 2 * i + 2 {
      SubtreesApart((k - 1) / 2, i);
    } else if k == 2 * i + 2 {
      assert !InSubtree(i, 2 * i + 1);
    }
  }

  /** Lemma: under a strict weak order no node of a heap-ordered subtree must come after its root. */
  lemma {:induction false} SubtreeRootAbove<T(!new)>(s: seq<T>, r: int, k: int, n: int, less: (T, T) -> bool)
    requires Asymmetric(less) && NotLessTransitive(less)
    requires 0 <= r <= k < n <= |s| && InSubtree(k, r) && SubtreeHeap(s, r, n, less)
    ensures !less(s[r], s[k])
    decreases k
  {
    if k != r {
      var p := (k - 1) / 2;
      SubtreeRootAbove(s, r, p, n, less);
      assert HeapAt(s, p, n, less);
    }
  }

  /** Lemma: when node `i` already holds the maximum and its children's subtrees are heaps, so is its own. */
  lemma SubtreeHeapDone<T(!new)>(s: seq<T>, i: int, n: int, less: (T, T) -> bool)
    requires Asymmetric(less) && NotLessTransitive(less)
    requires 0 <= i < n <= |s|
    requires SubtreeHeap(s, 2 * i + 1, n, less) && SubtreeHeap(s, 2 * i + 2, n, less)
    requires Largest(s, n, i, less) == i
    ensures SubtreeHeap(s, i, n, less)
  {
    LargestIsMax(s, n, i, less);
    forall k | i <= k < n && InSubtree(k, i)
      ensures HeapAt(s, k, n, less)
    {
      if k != i {
        SubtreeSplit(k, i);
      }
    }
  }

  /**
   * Lemma: swapping node `i` with its larger child `c` leaves the subtrees of
   * `c`'s children untouched, so they are heaps when `i`'s children's were.
   */
  lemma SubtreeSwapReady<T>(s: seq<T>, t: seq<T>, i: int, c: int, n: int, less: (T, T) -> bool)
    requires 0 <= i < n <= |s|
    requires SubtreeHeap(s, 2 * i + 1, n, less) && SubtreeHeap(s, 2 * i + 2, n, less)
    requires c == Largest(s, n, i, less) != i
    requires t == s[i := s[c]][c := s[i]]
    ensures SubtreeHeap(t, 2 * c + 1, n, less) && SubtreeHeap(t, 2 * c + 2, n, less)
  {
    assert SubtreeHeap(s, c, n, less);
    forall k | 2 * c + 1 <= k < n && (InSubtree(k, 2 * c + 1) || InSubtree(k, 2 * c + 2))
      ensures HeapAt(t, k, n, less)
    {
      if InSubtree(k, 2 * c + 1) {
        SubtreeTrans(k, 2 * c + 1, c);
      } else {
        SubtreeTrans(k, 2 * c + 2, c);
      }
      assert HeapAt(s, k, n, less);
    }
  }

  /**
   * Lemma: after the swap with child `c` and a sift of `c` that changed only
   * `c`'s subtree, only `i`'s subtree has changed and node `i` holds an
   * element of it.
   */
  lemma SiftFrame<T>(s: seq<T>, t: seq<T>, u: seq<T>, i: int, c: int, n: int)
    requires 0 <= i && (c == 2 * i + 1 || c == 2 * i + 2) && c < n <= |s|
    requires t == s[i := s[c]][c := s[i]]
    requires SubtreeFrame(t, u, c, n)
    ensures SubtreeFrame(s, u, i, n) && RootFrom(s, u, i, n)
  {
    assert InSubtree(c, i) by {
      assert (c - 1) / 2 == i;
    }
    forall k | 0 <= k < |s| && !(k < n && InSubtree(k, i))
      ensures u[k] == s[k]
    {
      if k < n && InSubtree(k, c) {
        SubtreeTrans(k, c, i);
      }
    }
    assert u[i] == s[c];
  }

  /**
   * Lemma: after the swap with the larger child `c` and a sift of `c` that
   * made `c`'s subtree a heap from elements of that subtree, `i`'s subtree
   * is a heap.
   */
  lemma SubtreeSwap<T(!new)>(s: seq<T>, t: seq<T>, u: seq<T>, i: int, n: int, less: (T, T) -> bool)
    requires Asymmetric(less) && NotLessTransitive(less)
    requires 0 <= i < n <= |s|
    requires SubtreeHeap(s, 2 * i + 1, n, less) && SubtreeHeap(s, 2 * i + 2, n, less)
    requires Largest(s, n, i, less) != i
    requires t == s[i := s[Largest(s, n, i, less)]][Largest(s, n, i, less) := s[i]]
    requires SubtreeFrame(t, u, Largest(s, n, i, less), n) && RootFrom(t, u, Largest(s, n, i, less), n)
    requires SubtreeHeap(u, Largest(s, n, i, less), n, less)
    ensures SubtreeHeap(u, i, n, less)
  {
    var c := Largest(s, n, i, less);
    var d := if c == 2 * i + 1 then 2 * i + 2 else 2 * i + 1;
    LargestIsMax(s, n, i, less);
    SiftRoot(s, t, u, i, n, less);
    forall k | i <= k < n && InSubtree(k, i)
      ensures HeapAt(u, k, n, less)
    {
      if k == i {
        if d < n {
          SubtreesApart(d, i);
          assert u[d] == s[d];
        }
      } else {
        SubtreeSplit(k, i);
        if !InSubtree(k, c) {
          SiblingUnchanged(s, t, u, i, c, d, k, n, less);
        }
      }
    }
  }

  /** Lemma: node `i` ends up not after the new root of the sifted child `c`, and holds `s[c]`. */
  lemma SiftRoot<T(!new)>(s: seq<T>, t: seq<T>, u: seq<T>, i: int, n: int, less: (T, T) -> bool)
    requires Asymmetric(less) && NotLessTransitive(less)
    requires 0 <= i < n <= |s|
    requires SubtreeHeap(s, 2 * i + 1, n, less) && SubtreeHeap(s, 2 * i + 2, n, less)
    requires Largest(s, n, i, less) != i
    requires t == s[i := s[Largest(s, n, i, less)]][Largest(s, n, i, less) := s[i]]
    requires SubtreeFrame(t, u, Largest(s, n, i, less), n) && RootFrom(t, u, Largest(s, n, i, less), n)
    ensures u[i] == s[Largest(s, n, i, less)]
    ensures !less(u[i], u[Largest(s, n, i, less)])
  {
    var c := Largest(s, n, i, less);
    LargestIsMax(s, n, i, less);
    assert SubtreeHeap(s, c, n, less);
    var k :| c <= k < n && InSubtree(k, c) && u[c] == t[k];
    if k != c {
      SubtreeRootAbove(s, c, k, n, less);
    }
    assert u[i] == t[i];
  }

  /** Lemma: the children of a node of the subtree of `r` are in it too. */
  lemma SubtreeChildren(k: int, r: int)
    requires 0 <= r <= k && InSubtree(k, r)
    ensures InSubtree(2 * k + 1, r) && InSubtree(2 * k + 2, r)
  {
    assert (2 * k + 1 - 1) / 2 == k && (2 * k + 2 - 1) / 2 == k;
  }

  /** Lemma: a node under the other child `d` of `i` keeps its heap order through the swap with `c` and the sift of `c`. */
  lemma SiblingUnchanged<T>(s: seq<T>, t: seq<T>, u: seq<T>, i: int, c: int, d: int, k: int, n: int, less: (T, T) -> bool)
    requires 0 <= i && c < n <= |s|
    requires (c == 2 * i + 1 && d == 2 * i + 2) || (c == 2 * i + 2 && d == 2 * i + 1)
    requires SubtreeHeap(s, d, n, less)
    requires t == s[i := s[c]][c := s[i]]
    requires SubtreeFrame(t, u, c, n)
    requires d <= k < n && InSubtree(k, d)
    ensures HeapAt(u, k, n, less)
  {
    assert HeapAt(s, k, n, less);
    SubtreeChildren(k, d);
    SubtreesApart(k, i);
    SubtreesApart(c, i);
    SubtreesApart(2 * k + 1, i);
    SubtreesApart(2 * k + 2, i);
  }

  /**
   * Sifts node `i` of the heap `a[..n]` down: swaps it with its larger child
   * while it has one that must come after it.
   */
  method Heapify<T(!new)>(a: array<T>, n: int, i: int, ghost lo: int, less: (T, T) -> bool)
    requires 0 <= lo <= i < n <= a.Length
    modifies a
    ensures PermutedWithin(old(a[..]), a[..], i, n)
    ensures SubtreeFrame(old(a[..]), a[..], i, n) && RootFrom(old(a[..]), a[..], i, n)
    ensures StrictWeakOrder(less) && SiftReady(old(a[..]), lo, i, n, less) ==> Heap(a[..], lo, n, less)
    ensures StrictWeakOrder(less) && SubtreeHeap(old(a[..]), 2 * i + 1, n, less) && SubtreeHeap(old(a[..]), 2 * i + 2, n, less) ==>
              SubtreeHeap(a[..], i, n, less)
    decreases n - i
  {
    var largest := i;
    var left := 2 * i + 1;
    var right := 2 * i + 2;
    if left < n && less(a[largest], a[left]) {
      largest := left;
    }
    if right < n && less(a[largest], a[right]) {
      largest := right;
    }
    ghost var s := a[..];
    assert largest == Largest(s, n, i, less);
    ghost var ready := StrictWeakOrder(less) && SiftReady(s, lo, i, n, less);
    ghost var below := StrictWeakOrder(less) && SubtreeHeap(s, 2 * i + 1, n, less) && SubtreeHeap(s, 2 * i + 2, n, less);
    if StrictWeakOrder(less) {
      StrictWeakOrderIff(less);
    }
    if largest != i {
      a[i], a[largest] := a[largest], a[i];
      ghost var t := a[..];
      SwapWithin(s, t, i, n, i, largest);
      if ready {
        HeapifySwap(s, t, lo, i, n, less);
      }
      if below {
        SubtreeSwapReady(s, t, i, largest, n, less);
      }
      Heapify(a, n, largest, lo, less);
      ghost var u := a[..];
      PermutedWithinWiden(t, u, largest, n, i, n);
      PermutedWithinTrans(s, t, u, i, n);
      SiftFrame(s, t, u, i, largest, n);
      if below {
        SubtreeSwap(s, t, u, i, n, less);
      }
    } else {
      if ready {
        HeapifyDone(s, lo, i, n, less);
      }
      if below {
        SubtreeHeapDone(s, i, n, less);
      }
      assert InSubtree(i, i);
    }
  }

  /**
   * Sorts `a` by building a max-heap bottom-up and then repeatedly moving
   * its root behind the shrinking heap.
   */
  method HeapSort<T(!new)>(a: array<T>, less: (T, T) -> bool)
    modifies a
    ensures multiset(a[..]) == multiset(old(a[..]))
    ensures a.Length <= 1 ==> a[..] == old(a[..])
    ensures StrictWeakOrder(less) ==> Sorted(a[..], less)
    ensures StrictTotalOrder(less) && Sorted(old(a[..]), less) ==> a[..] == old(a[..])
  {
    ghost var orig := a[..];
    ghost var swo := StrictWeakOrder(less);
    if swo {
      StrictWeakOrderIff(less);
    }
    var n := a.Length;
    HeapLeaves(a[..], n / 2, n, less);
    for i := n / 2 downto 0
      invariant multiset(a[..]) == multiset(orig)
      invariant swo ==> Heap(a[..], i, n, less)
    {
      ghost var s := a[..];
      if swo {
        BuildReady(s, i, n, less);
      }
      Heapify(a, n, i, i, less);
      PermutedWithinWhole(s, a[..], i, n);
    }
    if n > 0 {
      for i := n downto 1
        invariant multiset(a[..]) == multiset(orig)
        invariant swo ==> Heap(a[..], 0, i, less) && Settled(a[..], i, less)
      {
        ghost var s := a[..];
        a[0], a[i] := a[i], a[0];
        ghost var t := a[..];
        ExtractSwap(s, t, i, less);
        Heapify(a, i, 0, 0, less);
        ExtractSettle(t, a[..], i, less);
      }
      if swo {
        BubbleDone(a[..], 1, less);
      }
    }
    Finish(orig, a[..], less);
  }
}

=== FILE: sort_examples.dfy ===
/**
 * The library's fixed test vectors, sorted by each of the five algorithms
 * with integer `<` as `less`: every algorithm must return the expected
 * sequence and `IsSorted` must accept it.
 */
module SortExamples {
  import opened SortSpec
  import opened Sort

  /** The comparison the tests use. */
  function IntLess(x: int, y: int): bool {
    x < y
  }

  lemma IntLessTotal()
    ensures StrictTotalOrder(IntLess)
  {
    assert StrictWeakOrder(IntLess) by {
      assert forall x, y, z :: Incomparable(IntLess, x, y) && Incomparable(IntLess, y, z) ==> x == y == z;
    }
  }

  datatype Algorithm = Quick | Merge | Insertion | Bubble | Heap

  /** Runs one of the five sorts on `a`. */
  method SortWith<T(!new)>(alg: Algorithm, a: array<T>, less: (T, T) -> bool)
    modifies a
    ensures multiset(a[..]) == multiset(old(a[..]))
    ensures StrictWeakOrder(less) ==> Sorted(a[..], less)
  {
    match alg
    case Quick => QuickSort(a, less);
    case Merge => MergeSort(a, less);
    case Insertion => InsertionSort(a, less);
    case Bubble => BubbleSort(a, less);
    case Heap => HeapSort(a, less);
  }

  /**
   * Sorts a copy of `input` with integer `<` and checks it with `IsSorted`,
   * as each test case does.
   */
  method SortCase(alg: Algorithm, input: seq<int>) returns (r: seq<int>, ok: bool)
    ensures multiset(r) == multiset(input) && Sorted(r, IntLess)
    ensures ok
  {
    var a := new int[|input|](i requires 0 <= i < |input| => input[i]);
    assert a[..] == input;
    IntLessTotal();
    SortWith(alg, a, IntLess);
    ok := IsSorted(a, IntLess);
    r := a[..];
  }

  /** Lemma: under integer `<` a test's expected output is the only sorted permutation of its input. */
  lemma Expected(input: seq<int>, r: seq<int>, want: seq<int>)
    requires multiset(r) == multiset(input) && Sorted(r, IntLess)
    requires multiset(want) == multiset(input) && Sorted(want, IntLess)
    ensures r == want
  {
    IntLessTotal();
    SortedPermutationsEqual(r, want, IntLess);
  }

  method EmptyArray(alg: Algorithm) returns (r: seq<int>)
    ensures r == []
  {
    var ok;
    r, ok := SortCase(alg, []);
    Expected([], r, []);
  }

  method SingleElement(alg: Algorithm) returns (r: seq<int>)
    ensures r == [1]
  {
    var ok;
    r, ok := SortCase(alg, [1]);
    Expected([1], r, [1]);
  }

  method AlreadySorted(alg: Algorithm) returns (r: seq<int>)
    ensures r == [1, 2, 3, 4, 5]
  {
    var ok;
    r, ok := SortCase(alg, [1, 2, 3, 4, 5]);
    OneToFiveSorted();
    Expected([1, 2, 3, 4, 5], r, [1, 2, 3, 4, 5]);
  }

  lemma OneToFiveSorted()
    ensures Sorted([1, 2, 3, 4, 5], IntLess)
  {
  }

  method ReverseSorted(alg: Algorithm) returns (r: seq<int>)
    ensures r == [1, 2, 3, 4, 5]
  {
    var ok;
    r, ok := SortCase(alg, [5, 4, 3, 2, 1]);
    ReverseSortedPermutation();
    OneToFiveSorted();
    Expected([5, 4, 3, 2, 1], r, [1, 2, 3, 4, 5]);
  }

  lemma ReverseSortedPermutation()
    ensures multiset([5, 4, 3, 2, 1]) == multiset([1, 2, 3, 4, 5])
  {
    Bag5(5, 4, 3, 2, 1);
    Bag5(1, 2, 3, 4, 5);
    ReverseSortedBags();
  }

  lemma ReverseSortedBags()
    ensures multiset{5, 4, 3, 2, 1} == multiset{1, 2, 3, 4, 5}
  {
  }

  method RandomOrder(alg: Algorithm) returns (r: seq<int>)
    ensures r == [1, 1, 2, 3, 3, 4, 5, 5, 5, 6, 9]
  {
    var ok;
    r, ok := SortCase(alg, [3, 1, 4, 1, 5, 9, 2, 6, 5, 3, 5]);
    RandomOrderPermutation();
    RandomOrderSorted();
    Expected([3, 1, 4, 1, 5, 9, 2, 6, 5, 3, 5], r, [1, 1, 2, 3, 3, 4, 5, 5, 5, 6, 9]);
  }

  lemma RandomOrderPermutation()
    ensures multiset([3, 1, 4, 1, 5, 9, 2, 6, 5, 3, 5]) == multiset([1, 1, 2, 3, 3, 4, 5, 5, 5, 6, 9])
  {
    Bag11(3, 1, 4, 1, 5, 9, 2, 6, 5, 3, 5);
    Bag11(1, 1, 2, 3, 3, 4, 5, 5, 5, 6, 9);
    RandomOrderBags();
  }

  lemma RandomOrderSorted()
    ensures Sorted([1, 1, 2, 3, 3, 4, 5, 5, 5, 6, 9], IntLess)
  {
  }

  lemma RandomOrderBags()
    ensures multiset{3, 1, 4, 1, 5, 9, 2, 6, 5, 3, 5} == multiset{1, 1, 2, 3, 3, 4, 5, 5, 5, 6, 9}
  {
  }

  method DuplicateElements(alg: Algorithm) returns (r: seq<int>)
    ensures r == [1, 1, 2, 2, 3, 3, 3]
  {
    var ok;
    r, ok := SortCase(alg, [3, 3, 3, 1, 1, 2, 2]);
    DuplicateElementsPermutation();
    DuplicateElementsSorted();
    Expected([3, 3, 3, 1, 1, 2, 2], r, [1, 1, 2, 2, 3, 3, 3]);
  }

  lemma DuplicateElementsPermutation()
    ensures multiset([3, 3, 3, 1, 1, 2, 2]) == multiset([1, 1, 2, 2, 3, 3, 3])
  {
    Bag7(3, 3, 3, 1, 1, 2, 2);
    Bag7(1, 1, 2, 2, 3, 3, 3);
    DuplicateElementsBags();
  }

  lemma DuplicateElementsSorted()
    ensures Sorted([1, 1, 2, 2, 3, 3, 3], IntLess)
  {
  }

  lemma DuplicateElementsBags()
    ensures multiset{3, 3, 3, 1, 1, 2, 2} == multiset{1, 1, 2, 2, 3, 3, 3}
  {
  }

  // Multisets of literal sequences, built one element at a time: the
  // solver does not find these equalities unaided.

  lemma Snoc(s: seq<int>, x: int, m: multiset<int>)
    requires multiset(s) == m
    ensures multiset(s + [x]) == m + multiset{x}
  {
  }

  lemma Bag5(a: int, b: int, c: int, d: int, e: int)
    ensures multiset([a, b, c, d, e]) == multiset{a, b, c, d, e}
  {
    Snoc([a], b, multiset{a});
    Snoc([a, b], c, multiset{a, b});
    Snoc([a, b, c], d, multiset{a, b, c});
    Snoc([a, b, c, d], e, multiset{a, b, c, d});
  }

  lemma Bag7(a: int, b: int, c: int, d: int, e: int, f: int, g: int)
    ensures multiset([a, b, c, d, e, f, g]) == multiset{a, b, c, d, e, f, g}
  {
    Snoc([a], b, multiset{a});
    Snoc([a, b], c, multiset{a, b});
    Snoc([a, b, c], d, multiset{a, b, c});
    Snoc([a, b, c, d], e, multiset{a, b, c, d});
    Snoc([a, b, c, d, e], f, multiset{a, b, c, d, e});
    Snoc([a, b, c, d, e, f], g, multiset{a, b, c, d, e, f});
  }

  lemma Bag11(a: int, b: int, c: int, d: int, e: int, f: int, g: int, h: int, i: int, j: int, k: int)
    ensures multiset([a, b, c, d, e, f, g, h, i, j, k]) == multiset{a, b, c, d, e, f, g, h, i, j, k}
  {
    Snoc([a], b, multiset{a});
    Snoc([a, b], c, multiset{a, b});
    Snoc([a, b, c], d, multiset{a, b, c});
    Snoc([a, b, c, d], e, multiset{a, b, c, d});
    Snoc([a, b, c, d, e], f, multiset{a, b, c, d, e});
    Snoc([a, b, c, d, e, f], g, multiset{a, b, c, d, e, f});
    Snoc([a, b, c, d, e, f, g], h, multiset{a, b, c, d, e, f, g});
    Snoc([a, b, c, d, e, f, g, h], i, multiset{a, b, c, d, e, f, g, h});
    Snoc([a, b, c, d, e, f, g, h, i], j, multiset{a, b, c, d, e, f, g, h, i});
    Snoc([a, b, c, d, e, f, g, h, i, j], k, multiset{a, b, c, d, e, f, g, h, i, j});
  }
}

=== FILE: sort_spec.dfy ===
/**
 * The vocabulary the sorting library is specified in: properties of the
 * caller-supplied `less` predicate, sortedness of a sequence under it, and
 * permutations confined to an index range.
 */
module SortSpec {

  // ---------------------------------------------------------------------
  // Orderings
  // ---------------------------------------------------------------------

  ghost predicate Irreflexive<T(!new)>(less: (T, T) -> bool) {
    forall x :: !less(x, x)
  }

  ghost predicate Transitive<T(!new)>(less: (T, T) -> bool) {
    forall x, y, z :: less(x, y) && less(y, z) ==> less(x, z)
  }

  /** Neither element has to precede the other. */
  predicate Incomparable<T>(less: (T, T) -> bool, x: T, y: T) {
    !less(x, y) && !less(y, x)
  }

  ghost predicate IncomparabilityTransitive<T(!new)>(less: (T, T) -> bool) {
    forall x, y, z :: Incomparable(less, x, y) && Incomparable(less, y, z) ==> Incomparable(less, x, z)
  }

  /** The condition under which the library promises a sorted result. */
  ghost predicate StrictWeakOrder<T(!new)>(less: (T, T) -> bool) {
    Irreflexive(less) && Transitive(less) && IncomparabilityTransitive(less)
  }

  /** A strict weak order in which only equal elements are incomparable (integer `<`). */
  ghost predicate StrictTotalOrder<T(!new)>(less: (T, T) -> bool) {
    StrictWeakOrder(less) && forall x, y :: x != y ==> less(x, y) || less(y, x)
  }

  ghost predicate Asymmetric<T(!new)>(less: (T, T) -> bool) {
    forall x, y :: less(x, y) ==> !less(y, x)
  }

  /** "Not after" (`!less(y, x)`, read x <= y) is transitive. */
  ghost predicate NotLessTransitive<T(!new)>(less: (T, T) -> bool) {
    forall x, y, z :: !less(y, x) && !less(z, y) ==> !less(z, x)
  }

  /**
   * A strict weak order is exactly an asymmetric relation whose complement
   * of the converse ("not after") is transitive. The sorts' proofs use the
   * right-hand side.
   */
  lemma StrictWeakOrderIff<T(!new)>(less: (T, T) -> bool)
    ensures StrictWeakOrder(less) <==> Asymmetric(less) && NotLessTransitive(less)
  {
    if StrictWeakOrder(less) {
      forall x, y, z | !less(y, x) && !less(z, y)
        ensures !less(z, x)
      {
        if !less(x, y) && !less(y, z) {
          assert Incomparable(less, x, y) && Incomparable(less, y, z);
        }
      }
    }
    if Asymmetric(less) && NotLessTransitive(less) {
      forall x, y, z | less(x, y) && less(y, z)
        ensures less(x, z)
      {
        assert !less(y, x);
      }
    }
  }

  // ---------------------------------------------------------------------
  // Sortedness
  // ---------------------------------------------------------------------

  /** No element must precede its left neighbour: what `IsSorted` checks. */
  ghost predicate Sorted<T>(s: seq<T>, less: (T, T) -> bool) {
    forall i :: 0 < i < |s| ==> !less(s[i], s[i - 1])
  }

  /** No element must precede any element to its left. */
  ghost predicate SortedPairwise<T>(s: seq<T>, less: (T, T) -> bool) {
    forall i, j :: 0 <= i < j < |s| ==> !less(s[j], s[i])
  }

  lemma {:induction false} SortedSpan<T(!new)>(s: seq<T>, less: (T, T) -> bool, i: int, j: int)
    requires NotLessTransitive(less) && Sorted(s, less)
    requires 0 <= i < j < |s|
    ensures !less(s[j], s[i])
    decreases j - i
  {
    if j > i + 1 {
      SortedSpan(s, less, i, j - 1);
      assert !less(s[j], s[j - 1]);
    }
  }

  /** Under a strict weak order the adjacent check decides full sortedness. */
  lemma SortedIffPairwise<T(!new)>(s: seq<T>, less: (T, T) -> bool)
    requires StrictWeakOrder(less)
    ensures Sorted(s, less) <==> SortedPairwise(s, less)
  {
    StrictWeakOrderIff(less);
    if Sorted(s, less) {
      forall i, j | 0 <= i < j < |s|
        ensures !less(s[j], s[i])
      {
        SortedSpan(s, less, i, j);
      }
    }
  }

  /**
   * Under a strict total order a sorted arrangement of a multiset is unique:
   * two sorted permutations of each other are equal.
   */
  lemma {:induction false} SortedPermutationsEqual<T(!new)>(s: seq<T>, t: seq<T>, less: (T, T) -> bool)
    requires StrictTotalOrder(less)
    requires Sorted(s, less) && Sorted(t, less)
    requires multiset(s) == multiset(t)
    ensures s == t
    decreases |s|
  {
    assert |s| == |multiset(s)| == |multiset(t)| == |t|;
    if s != [] {
      SortedHeadsEqual(s, t, less);
      TailMultiset(s, t);
      assert Sorted(s[1..], less) && Sorted(t[1..], less);
      SortedPermutationsEqual(s[1..], t[1..], less);
      assert s == [s[0]] + s[1..] && t == [t[0]] + t[1..];
    }
  }

  /** Lemma: sorted permutations of each other under a strict total order start alike. */
  lemma SortedHeadsEqual<T(!new)>(s: seq<T>, t: seq<T>, less: (T, T) -> bool)
    requires StrictTotalOrder(less)
    requires Sorted(s, less) && Sorted(t, less)
    requires multiset(s) == multiset(t) && s != [] && t != []
    ensures s[0] == t[0]
  {
    SortedIffPairwise(s, less);
    SortedIffPairwise(t, less);
    assert t[0] in multiset(s) by { assert t[0] in t; }
    assert s[0] in multiset(t) by { assert s[0] in s; }
    var i :| 0 <= i < |s| && s[i] == t[0];
    var j :| 0 <= j < |t| && t[j] == s[0];
    assert !less(t[0], s[0]) by { if i > 0 { assert !less(s[i], s[0]); } }
    assert !less(s[0], t[0]) by { if j > 0 { assert !less(t[j], t[0]); } }
  }

  /** Lemma: removing equal heads from permutations of each other leaves permutations. */
  lemma TailMultiset<T>(s: seq<T>, t: seq<T>)
    requires multiset(s) == multiset(t) && s != [] && t != [] && s[0] == t[0]
    ensures multiset(s[1..]) == multiset(t[1..])
  {
    assert s == [s[0]] + s[1..] && t == [t[0]] + t[1..];
    forall x
      ensures multiset(s[1..])[x] == multiset(t[1..])[x]
    {
      assert multiset(s)[x] == multiset(t)[x];
    }
  }

  /** A sequence of length at most one has no other arrangement. */
  lemma ShortPermutationUnchanged<T>(s: seq<T>, t: seq<T>)
    requires |s| <= 1 && multiset(s) == multiset(t)
    ensures s == t
  {
    assert |s| == |multiset(s)| == |multiset(t)| == |t|;
    if |s| == 1 {
      assert t[0] in multiset(s) by { assert t[0] in t; }
    }
  }

  // ---------------------------------------------------------------------
  // Permutations
  // ---------------------------------------------------------------------

  /**
   * `t` is `s` with only the elements in [lo, hi) rearranged: the same
   * elements inside the range, the same values outside it.
   */
  ghost predicate PermutedWithin<T>(s: seq<T>, t: seq<T>, lo: int, hi: int) {
    && 0 <= lo <= hi <= |s| == |t|
    && s[..lo] == t[..lo]
    && s[hi..] == t[hi..]
    && multiset(s[lo..hi]) == multiset(t[lo..hi])
  }

  lemma PermutedWithinIntro<T>(s: seq<T>, t: seq<T>, lo: int, hi: int)
    requires 0 <= lo <= hi <= |s| == |t|
    requires multiset(s) == multiset(t)
    requires forall k :: 0 <= k < lo || hi <= k < |s| ==> s[k] == t[k]
    ensures PermutedWithin(s, t, lo, hi)
  {
    assert s[..lo] == t[..lo];
    assert s[hi..] == t[hi..];
    SplitMultiset(s, lo, hi);
    SplitMultiset(t, lo, hi);
    forall x
      ensures multiset(s[lo..hi])[x] == multiset(t[lo..hi])[x]
    {
      assert multiset(s)[x] == multiset(t)[x];
    }
  }

  /** Lemma: the multiset of a sequence is the sum of those of its three parts. */
  lemma SplitMultiset<T>(s: seq<T>, lo: int, hi: int)
    requires 0 <= lo <= hi <= |s|
    ensures multiset(s) == multiset(s[..lo]) + multiset(s[lo..hi]) + multiset(s[hi..])
  {
    assert s == s[..lo] + s[lo..hi] + s[hi..];
  }

  lemma PermutedWithinWhole<T>(s: seq<T>, t: seq<T>, lo: int, hi: int)
    requires PermutedWithin(s, t, lo, hi)
    ensures multiset(s) == multiset(t)
    ensures forall k :: 0 <= k < lo || hi <= k < |s| ==> s[k] == t[k]
  {
    assert s == s[..lo] + s[lo..hi] + s[hi..];
    assert t == t[..lo] + t[lo..hi] + t[hi..];
    forall k | 0 <= k < lo || hi <= k < |s|
      ensures s[k] == t[k]
    {
      if k < lo {
        assert s[k] == s[..lo][k];
      } else {
        assert s[k] == s[hi..][k - hi];
      }
    }
  }

  /** Widening the range and chaining two steps both keep a permutation within. */
  lemma PermutedWithinWiden<T>(s: seq<T>, t: seq<T>, lo: int, hi: int, lo': int, hi': int)
    requires PermutedWithin(s, t, lo, hi)
    requires 0 <= lo' <= lo && hi <= hi' <= |s|
    ensures PermutedWithin(s, t, lo', hi')
  {
    PermutedWithinWhole(s, t, lo, hi);
    PermutedWithinIntro(s, t, lo', hi');
  }

  lemma PermutedWithinTrans<T>(s: seq<T>, t: seq<T>, u: seq<T>, lo: int, hi: int)
    requires PermutedWithin(s, t, lo, hi) && PermutedWithin(t, u, lo, hi)
    ensures PermutedWithin(s, u, lo, hi)
  {
  }

  /** A property held by every element is held by every element of a permutation. */
  lemma PermutationKeepsAll<T>(s: seq<T>, t: seq<T>, p: T -> bool)
    requires multiset(s) == multiset(t)
    requires forall k :: 0 <= k < |s| ==> p(s[k])
    ensures forall k :: 0 <= k < |t| ==> p(t[k])
  {
    forall k | 0 <= k < |t|
      ensures p(t[k])
    {
      assert t[k] in multiset(s) by { assert t[k] in t; }
      var i :| 0 <= i < |s| && s[i] == t[k];
    }
  }

  /** A property held throughout [lo, hi) is still held there after a permutation within it. */
  lemma PermutedWithinKeepsAll<T>(s: seq<T>, t: seq<T>, lo: int, hi: int, p: T -> bool)
    requires PermutedWithin(s, t, lo, hi)
    requires forall k :: lo <= k < hi ==> p(s[k])
    ensures forall k :: lo <= k < hi ==> p(t[k])
  {
    var s', t' := s[lo..hi], t[lo..hi];
    assert forall k :: 0 <= k < |s'| ==> p(s'[k]) by {
      forall k | 0 <= k < |s'| ensures p(s'[k]) {
        assert s'[k] == s[lo + k];
      }
    }
    PermutationKeepsAll(s', t', p);
    forall k | lo <= k < hi
      ensures p(t[k])
    {
      assert t[k] == t'[k - lo];
    }
  }

  // ---------------------------------------------------------------------
  // Stability
  // ---------------------------------------------------------------------

  /** The elements of `s` that are incomparable to `x` (tied with it), in their order in `s`. */
  function Ties<T>(s: seq<T>, x: T, less: (T, T) -> bool): (r: seq<T>)
    decreases |s|
  {
    if s == [] then []
    else Ties(s[..|s| - 1], x, less) + (if Incomparable(less, s[|s| - 1], x) then [s[|s| - 1]] else [])
  }

  /** For every `x`, the elements of `s` tied with it, in their order in `s`. */
  ghost function TiesOf<T(!new)>(s: seq<T>, less: (T, T) -> bool): imap<T, seq<T>> {
    imap x: T | true :: Ties(s, x, less)
  }

  /**
   * `t` keeps every group of tied elements of `s` in the order they have in
   * `s`: what a stable sort promises.
   */
  ghost predicate Stable<T(!new)>(s: seq<T>, t: seq<T>, less: (T, T) -> bool) {
    TiesOf(t, less) == TiesOf(s, less)
  }

  /** Lemma: `Stable` says that every `x` has the same ties, in the same order, in both. */
  lemma StableIff<T(!new)>(s: seq<T>, t: seq<T>, less: (T, T) -> bool)
    ensures Stable(s, t, less) ==> forall x :: Ties(t, x, less) == Ties(s, x, less)
    ensures (forall x :: Ties(t, x, less) == Ties(s, x, less)) ==> Stable(s, t, less)
  {
    if Stable(s, t, less) {
      forall x
        ensures Ties(t, x, less) == Ties(s, x, less)
      {
        assert TiesOf(t, less)[x] == TiesOf(s, less)[x];
      }
    }
  }

  /** Lemma: the ties of a concatenation are the ties of its parts, in order. */
  lemma {:induction false} TiesConcat<T>(s: seq<T>, t: seq<T>, x: T, less: (T, T) -> bool)
    ensures Ties(s + t, x, less) == Ties(s, x, less) + Ties(t, x, less)
    decreases |t|
  {
    if t == [] {
      assert s + t == s;
    } else {
      var t' := t[..|t| - 1];
      assert (s + t)[..|s + t| - 1] == s + t';
      TiesConcat(s, t', x, less);
    }
  }

  /**
   * Lemma: with incomparability transitive, two neighbours one of which must
   * precede the other are never both tied with the same `x`, so exchanging
   * them keeps the order of every group of ties.
   */
  lemma TiesSwap<T(!new)>(s: seq<T>, j: int, x: T, less: (T, T) -> bool)
    requires IncomparabilityTransitive(less)
    requires 0 <= j && j + 1 < |s| && less(s[j + 1], s[j])
    ensures Ties(s[j := s[j + 1]][j + 1 := s[j]], x, less) == Ties(s, x, less)
  {
    var a, u, v, b := s[..j], s[j], s[j + 1], s[j + 2..];
    assert s == a + [u] + [v] + b;
    assert s[j := v][j + 1 := u] == a + [v] + [u] + b;
    TiesConcat(a + [u] + [v], b, x, less);
    TiesConcat(a + [u], [v], x, less);
    TiesConcat(a, [u], x, less);
    TiesConcat(a + [v] + [u], b, x, less);
    TiesConcat(a + [v], [u], x, less);
    TiesConcat(a, [v], x, less);
    TiesApart(u, v, x, less);
    AppendEither(Ties(a, x, less), Ties([u], x, less), Ties([v], x, less));
  }

  /** Lemma: a single element is its own tie list exactly when it is tied with `x`. */
  lemma TiesSingleton<T>(y: T, x: T, less: (T, T) -> bool)
    ensures Ties([y], x, less) == if Incomparable(less, y, x) then [y] else []
  {
    assert [y][..0] == [];
  }

  /** Lemma: of two elements one of which must precede the other, at most one is tied with `x`. */
  lemma TiesApart<T(!new)>(u: T, v: T, x: T, less: (T, T) -> bool)
    requires IncomparabilityTransitive(less) && (less(u, v) || less(v, u))
    ensures Ties([u], x, less) == [] || Ties([v], x, less) == []
  {
    TiesSingleton(u, x, less);
    TiesSingleton(v, x, less);
    if Incomparable(less, u, x) && Incomparable(less, v, x) {
      assert Incomparable(less, u, x) && Incomparable(less, x, v);
    }
  }

  /** Lemma: an empty part can change places with its neighbour. */
  lemma AppendEither<T>(a: seq<T>, b: seq<T>, c: seq<T>)
    requires b == [] || c == []
    ensures a + b + c == a + c + b
  {
  }
}
